=== FILE: README.md ===
# Banking customer service — a Dafny model of its validation and CRUD core

This project models the business core of a customer microservice for a bank:
personal and business customers identified by a document (DNI, passport, RUC or
foreign-resident card), with a phone number, an e-mail and an address, stored
in a document database. The HTTP layer, the reactive pipeline and the database
driver are framework code; what the service itself decides is modelled here:

- the **document-format registry** (`DocumentType`): per-type name, maximum
  length and pattern, and `isValidFormat` (module `DocumentTypes`);
- the **field validators** (`DocumentValidator`): the trimmed document-number
  check and the stand-alone RUC check (module `DocumentValidator`);
- the **customer validator** (`CustomerValidator`): four fail-fast rules, run
  in a fixed order (module `CustomerValidator`);
- the **request binding constraints** on `CustomerRequestDTO`, with the
  field errors the framework reports (module `Requests`);
- the **entity** (`Customer`): builder defaults, `isPersonalCustomer`,
  `isBusinessCustomer`, `activate`, `deactivate`, and the unique indexes
  (module `Entity`);
- the **mapper** (`CustomerMapper`): request to entity, entity to response,
  and the null-skipping update (module `Mapper`);
- the **service** (`CustomerServiceImpl`): create, update, delete, the
  look-ups and the listings over a store `map<Id, Customer>`, with the
  uniqueness checks (modules `CustomerService` and `ServiceProperties`);
- the **error mapping** (`GlobalExceptionHandler`) from error kind to status,
  title, message and path (module `ExceptionHandler`).

Supporting modules: `Results` (Option / Outcome / Result), `Text` (Java's
`String.trim`, blankness, ASCII character classes), `Patterns` (a small model
of the anchored regular expressions the source uses, so each pattern is written
literally and then proved equal to a hand-written predicate), `CustomerTypes`,
`Errors`, `Responses`.

Java `null` is `None` throughout; a thrown exception is the failure side of an
`Outcome` or `Result`. Service operations return `Reply(store, result)`, so
"a failure leaves the store unchanged" is a postcondition. The clock (`now`)
and the identifier the database generates for a new record (`freshId`) are
parameters; the library's e-mail format check is the parameter `isEmail`.

Behaviour of the code worth knowing:

- `isValidFormat` does **not** trim its input; only `DocumentValidator`
  trims before calling it. A valid number with surrounding spaces is rejected
  by the registry (`DocumentTypes.PaddingRejected`) and accepted by the
  validator (`DocumentValidator.PaddedNumberAccepted`).
- The RUC uniqueness query is skipped only for a null RUC; the empty string is
  looked up like any other value (`ServiceProperties.EmptyRucIsChecked`).
- Update checks uniqueness before it checks that the record exists
  (`ServiceProperties.MissingIdWithTakenEmail`).
- The uniqueness check compares the document number as submitted, while the
  format check trims it, so two records may hold numbers that differ only by
  padding (`ServiceProperties.PaddedDocumentNumberNotDuplicate`).
- The business-rule RUC check trims; the binding pattern does not. Only the
  two together guarantee that a stored business RUC is exactly eleven digits
  (`Mapper.NewEntityInvariant`).

## Model

| member | source | states |
|---|---|---|
| `Text.Trim` | src/main/java/com/nttdata/banking/customer/utils/DocumentValidator.java:19-23 | `String.trim` yields the empty string exactly when every character is at most U+0020; otherwise the result starts and ends with a character above U+0020 |
| `Text.TrimLeadingPadded` | src/main/java/com/nttdata/banking/customer/utils/DocumentValidator.java:23 | stripping the front of a run of characters at most U+0020 followed by text that starts with a printable character gives back that text |
| `Text.TrimTrailingPadded` | src/main/java/com/nttdata/banking/customer/utils/DocumentValidator.java:23 | the same at the back |
| `Text.TrimPadded` | src/main/java/com/nttdata/banking/customer/utils/DocumentValidator.java:23 | trimming a core surrounded by runs of characters at most U+0020 gives back exactly the core |
| `Text.TrimIdempotent` | src/main/java/com/nttdata/banking/customer/utils/DocumentValidator.java:39 | trimming twice is trimming once |
| `Text.BlankIffAllTrimmed` | src/main/java/com/nttdata/banking/customer/utils/CustomerValidator.java:82-84 | a non-null string is blank exactly when all its characters are at most U+0020 |
| `Patterns.SingleRep` | src/main/java/com/nttdata/banking/customer/enums/DocumentType.java:7-10 | a single bounded repetition `c{m,n}` matches exactly the strings of class `c` with length in `[m, n]` |
| `DocumentTypes.PatternAgrees` | src/main/java/com/nttdata/banking/customer/enums/DocumentType.java:7-10 | each registry pattern accepts exactly: DNI 8 ASCII digits, RUC 11 ASCII digits, PASSPORT and FOREIGNER_CARD 6 to 12 of `[A-Z0-9]` |
| `DocumentTypes.IsValidFormat` | src/main/java/com/nttdata/banking/customer/enums/DocumentType.java:22-27 | accepts exactly the non-null numbers of the type's format, without trimming; false on null or blank input; every accepted number fits the type's maximum length |
| `DocumentTypes.FormatOkNotBlank` | src/main/java/com/nttdata/banking/customer/enums/DocumentType.java:23-26 | no accepted number is blank, so the early blank test never changes the outcome of the pattern |
| `DocumentTypes.PassportAndForeignerCardAgree` | src/main/java/com/nttdata/banking/customer/enums/DocumentType.java:8-10 | PASSPORT and FOREIGNER_CARD accept the same numbers |
| `DocumentTypes.PaddingRejected` | src/main/java/com/nttdata/banking/customer/enums/DocumentType.java:26 | a valid number with a space before or after it is rejected |
| `DocumentTypes.LowercaseRejected` | src/main/java/com/nttdata/banking/customer/enums/DocumentType.java:8-10 | a passport or foreign-card number containing a lower-case letter is rejected |
| `DocumentValidator.ValidateDocumentFormat` | src/main/java/com/nttdata/banking/customer/utils/DocumentValidator.java:12-33 | passes exactly when the type is present and the trimmed number has the type's format; a null type fails first whatever the number; a blank number fails next; every failure is InvalidDocument with the source's message |
| `DocumentValidator.PaddedNumberAccepted` | src/main/java/com/nttdata/banking/customer/utils/DocumentValidator.java:23-30 | a valid number surrounded by padding passes, because the validator trims |
| `DocumentValidator.ValidateRucFormat` | src/main/java/com/nttdata/banking/customer/utils/DocumentValidator.java:35-46 | a null or blank RUC always passes; otherwise it passes exactly when the trimmed RUC is 11 ASCII digits; the only failure is InvalidDocument "RUC must be exactly 11 digits" |
| `DocumentValidator.RucCheckAgreesWithRegistry` | src/main/java/com/nttdata/banking/customer/utils/DocumentValidator.java:40 | on a non-blank value the stand-alone RUC check and the document check for type RUC accept the same strings |
| `Requests.RucConstraintMeans` | src/main/java/com/nttdata/banking/customer/dto/request/CustomerRequestDTO.java:43-44 | the RUC pattern accepts exactly the empty string and the 11-digit strings |
| `Requests.PhoneConstraintMeans` | src/main/java/com/nttdata/banking/customer/dto/request/CustomerRequestDTO.java:48 | the phone pattern accepts exactly an optional `+` followed by 2 to 15 ASCII digits whose first is not 0 |
| `Requests.RucFieldMeans` | src/main/java/com/nttdata/banking/customer/dto/request/CustomerRequestDTO.java:43-44 | the RUC field binds exactly when it is null, empty or 11 digits |
| `Requests.PhoneFieldMeans` | src/main/java/com/nttdata/banking/customer/dto/request/CustomerRequestDTO.java:47-49 | the phone field binds exactly when present and phone-shaped |
| `Requests.EmailFieldMeans` | src/main/java/com/nttdata/banking/customer/dto/request/CustomerRequestDTO.java:51-54 | the e-mail field binds exactly when present, not blank, accepted by the e-mail check and at most 150 characters |
| `Requests.PlainFields` | src/main/java/com/nttdata/banking/customer/dto/request/CustomerRequestDTO.java:35-58 | the not-blank and pattern annotations on document number, RUC, phone, e-mail and address, read in plain terms |
| `Requests.ValidIsPlain` | src/main/java/com/nttdata/banking/customer/dto/request/CustomerRequestDTO.java:21-58 | a request meeting every annotation meets their plain reading |
| `Requests.PlainIsValid` | src/main/java/com/nttdata/banking/customer/dto/request/CustomerRequestDTO.java:21-58 | a request meeting the plain reading meets every annotation |
| `Requests.AllDeclared` | src/main/java/com/nttdata/banking/customer/dto/request/CustomerRequestDTO.java:21-58 | every annotation appears in the declaration-order list |
| `Requests.Violations` | src/main/java/com/nttdata/banking/customer/dto/request/CustomerRequestDTO.java:21-58 | every violated annotation of the list is reported with its own field and message, nothing else is reported, and the report is empty exactly when all hold |
| `Requests.BindingValidMeans` | src/main/java/com/nttdata/banking/customer/dto/request/CustomerRequestDTO.java:21-58 | binding succeeds exactly when: the type set is non-empty, the document type is present, the document number is non-blank and at most 12 characters, the RUC is null/empty/11 digits, the phone is phone-shaped, names are at most 100, company at most 200, e-mail non-blank, valid and at most 150, address non-blank and at most 300 |
| `Requests.BindingViolations` | src/main/java/com/nttdata/banking/customer/dto/request/CustomerRequestDTO.java:21-58 | the list of field errors is empty exactly when the request binds; each violated annotation is reported with its field and message, and every reported error is one of a violated annotation |
| `CustomerValidator.ValidateCustomerRequest` | src/main/java/com/nttdata/banking/customer/utils/CustomerValidator.java:23-77 | passes exactly when all four rules hold; otherwise the error is InvalidDocument from the first failing rule in the order types, personal (first name, then last name), business (company, RUC present, RUC format), document, and once the first three hold the outcome is the document check's |
| `CustomerValidator.BusinessFieldsIgnoredWithoutBusiness` | src/main/java/com/nttdata/banking/customer/utils/CustomerValidator.java:60-70 | without BUSINESS, company name and RUC never influence the outcome |
| `CustomerValidator.NamesIgnoredWithoutPersonal` | src/main/java/com/nttdata/banking/customer/utils/CustomerValidator.java:46-55 | without PERSONAL, first and last name never influence the outcome |
| `CustomerValidator.PersonalBlankLastNameRejected` | src/main/java/com/nttdata/banking/customer/utils/CustomerValidator.java:51-53 | a personal customer with a first name but a blank last name fails with the last-name message |
| `CustomerValidator.PersonalWithLastNamePasses` | src/main/java/com/nttdata/banking/customer/utils/CustomerValidator.java:46-55 | a personal customer with a first name and last name "Smith" clears the name rules; the outcome is then the document check's |
| `CustomerValidator.BusinessShortRucExample` | src/main/java/com/nttdata/banking/customer/utils/CustomerValidator.java:65-68 | a business customer with RUC "123" fails with the RUC-format message |
| `Entity.Activate` | src/main/java/com/nttdata/banking/customer/models/entity/Customer.java:72-75 | the result is active and stamped with now; every other field is unchanged |
| `Entity.Deactivate` | src/main/java/com/nttdata/banking/customer/models/entity/Customer.java:77-80 | the result is inactive and stamped with now; every other field is unchanged |
| `Entity.ActivateIdempotent` | src/main/java/com/nttdata/banking/customer/models/entity/Customer.java:72-80 | activating twice, or after deactivating, equals activating once at the later time |
| `Mapper.ToEntity` | src/main/java/com/nttdata/banking/customer/mapper/CustomerMapper.java:17-21 | id and updatedAt unset, active true, createdAt now, every request field carried over (a null type set becomes the empty default) |
| `Mapper.EmptyRequestGivesBuilderDefault` | src/main/java/com/nttdata/banking/customer/models/entity/Customer.java:28-58 | mapping an all-null request yields the builder defaults: empty type set, active, created now, everything else unset |
| `Mapper.ToResponseDto` | src/main/java/com/nttdata/banking/customer/mapper/CustomerMapper.java:23 | the response carries each of the entity's fourteen fields unchanged |
| `Mapper.ToResponseDtoInjective` | src/main/java/com/nttdata/banking/customer/mapper/CustomerMapper.java:23 | the response loses no field: equal responses come from equal entities |
| `Mapper.ResponseOfNewEntityAgrees` | src/main/java/com/nttdata/banking/customer/mapper/CustomerMapper.java:17-23 | the response to a mapped request agrees with the request on every shared field, with no id, created now, never updated, active |
| `Mapper.UpdateEntityFromDto` | src/main/java/com/nttdata/banking/customer/mapper/CustomerMapper.java:9-29 | id, createdAt and active kept; updatedAt is now; each non-null request field overwrites, each null one leaves the entity's value |
| `Mapper.EmptyUpdateOnlyStamps` | src/main/java/com/nttdata/banking/customer/mapper/CustomerMapper.java:25-29 | an all-null request changes only updatedAt |
| `Mapper.UpdateIdempotent` | src/main/java/com/nttdata/banking/customer/mapper/CustomerMapper.java:25-29 | applying a request twice equals applying it once at the later time |
| `Mapper.NewEntityInvariant` | src/main/java/com/nttdata/banking/customer/services/impl/CustomerServiceImpl.java:30-36 | a request that binds and passes the business rules maps to an entity with a non-empty type set, names for personal customers, company and an exactly 11-digit RUC for business customers, a document of its type's format and the required contact fields |
| `Mapper.UpdatedEntityInvariant` | src/main/java/com/nttdata/banking/customer/services/impl/CustomerServiceImpl.java:68-76 | the same invariants hold after applying such a request to any existing record |
| `CustomerService.ValidateUniqueFields` | src/main/java/com/nttdata/banking/customer/services/impl/CustomerServiceImpl.java:128-150 | passes exactly when no record has the e-mail, none has the document number and (for a non-null RUC) none has the RUC; a failure is DuplicateCustomer naming the first hit in the order e-mail, document number, RUC: a field is named only when it is taken, and a RUC-only conflict names the RUC; the message is "Customer already exists with " followed by the field's name and the value the request gave it |
| `CustomerService.ValidateUniqueFieldsForUpdate` | src/main/java/com/nttdata/banking/customer/services/impl/CustomerServiceImpl.java:153-175 | the same, counting only records other than the one being updated, with messages starting "Another customer already exists with " |
| `CustomerService.Create` | src/main/java/com/nttdata/banking/customer/services/impl/CustomerServiceImpl.java:27-41 | fails with the validator's error, else with the uniqueness error, leaving the store unchanged; succeeds exactly when both pass, adding exactly one record under the new id (active, created now, carrying the request) and changing no other |
| `CustomerService.Update` | src/main/java/com/nttdata/banking/customer/services/impl/CustomerServiceImpl.java:65-82 | fails with the validator's error, else the uniqueness error, else CustomerNotFound, leaving the store unchanged; on success only the record under the id changes, to the mapper's update of it |
| `CustomerService.DeleteById` | src/main/java/com/nttdata/banking/customer/services/impl/CustomerServiceImpl.java:85-93 | an absent id fails with CustomerNotFound and the store unchanged; a present id is removed and nothing else changes |
| `CustomerService.FindById` | src/main/java/com/nttdata/banking/customer/services/impl/CustomerServiceImpl.java:54-62 | fails with CustomerNotFound exactly when the id is absent; otherwise returns that record's response |
| `CustomerService.FindByEmail` | src/main/java/com/nttdata/banking/customer/services/impl/CustomerServiceImpl.java:96-104 | fails with CustomerNotFound exactly when no record has the e-mail, with the single-result finder's error exactly when two or more do, fails in no other way, and returns the response of the record when exactly one has it; in a store with a unique e-mail index only the not-found failure occurs |
| `CustomerService.FindByDocumentNumber` | src/main/java/com/nttdata/banking/customer/services/impl/CustomerServiceImpl.java:107-115 | fails with CustomerNotFound exactly when no record has the number, with the single-result finder's error exactly when two or more do, fails in no other way, and returns the response of the record when exactly one has it; in a store with a unique document-number index only the not-found failure occurs |
| `CustomerService.List` | src/main/java/com/nttdata/banking/customer/services/impl/CustomerServiceImpl.java:47-48 | one response per selected record: every selected record's response appears, and every element is a selected record's response |
| `CustomerService.FindAll` | src/main/java/com/nttdata/banking/customer/services/impl/CustomerServiceImpl.java:44-51 | one response per stored record, each a stored record's response |
| `CustomerService.FindByActive` | src/main/java/com/nttdata/banking/customer/services/impl/CustomerServiceImpl.java:118-125 | one response per active record: only active records, every active record, and as many responses as active records |
| `ServiceProperties.PutPreservesUniqueIndexes` | src/main/java/com/nttdata/banking/customer/models/entity/Customer.java:37-48 | storing a record that clashes with no other keeps e-mail and document number unique and RUC unique among records that have one |
| `ServiceProperties.CreatePreservesWellFormed` | src/main/java/com/nttdata/banking/customer/services/impl/CustomerServiceImpl.java:35-37 | create keeps identifiers equal to keys and keeps the unique indexes |
| `ServiceProperties.UpdatePreservesWellFormed` | src/main/java/com/nttdata/banking/customer/services/impl/CustomerServiceImpl.java:73-78 | update keeps the unique indexes, including when a null request field skips its check |
| `ServiceProperties.DeletePreservesWellFormed` | src/main/java/com/nttdata/banking/customer/services/impl/CustomerServiceImpl.java:88-90 | delete keeps the store well formed |
| `ServiceProperties.CreateThenFindById` | src/main/java/com/nttdata/banking/customer/services/impl/CustomerServiceImpl.java:27-62 | reading a created record by its new id returns the create's response: the request's fields, the new id, active, created now, never updated |
| `ServiceProperties.CreatedOnlyWithEmail` | src/main/java/com/nttdata/banking/customer/services/impl/CustomerServiceImpl.java:26-40 | after a create, the new record is the only one with the request's e-mail |
| `ServiceProperties.CreatedOnlyWithDocumentNumber` | src/main/java/com/nttdata/banking/customer/services/impl/CustomerServiceImpl.java:26-40 | after a create, the new record is the only one with the request's document number |
| `ServiceProperties.CreateThenFindByEmail` | src/main/java/com/nttdata/banking/customer/services/impl/CustomerServiceImpl.java:27-104 | looking up a created record by the request's e-mail returns exactly the create's response |
| `ServiceProperties.CreateThenFindByDocumentNumber` | src/main/java/com/nttdata/banking/customer/services/impl/CustomerServiceImpl.java:27-115 | looking up a created record by the request's document number returns exactly the create's response |
| `ServiceProperties.DeleteThenFindById` | src/main/java/com/nttdata/banking/customer/services/impl/CustomerServiceImpl.java:54-93 | after deleting an id, reading it fails with CustomerNotFound |
| `ServiceProperties.UpdateKeepsCreation` | src/main/java/com/nttdata/banking/customer/services/impl/CustomerServiceImpl.java:74-78 | a successful update keeps createdAt, id and active and stamps updatedAt |
| `ServiceProperties.OwnValuesNeverDuplicate` | src/main/java/com/nttdata/banking/customer/services/impl/CustomerServiceImpl.java:153-175 | resubmitting a record's own e-mail, document number and RUC passes the update check, while the create check reports the e-mail |
| `ServiceProperties.MissingIdWithTakenEmail` | src/main/java/com/nttdata/banking/customer/services/impl/CustomerServiceImpl.java:73-75 | updating a missing id with an e-mail another record has fails with DuplicateCustomer on the e-mail, not CustomerNotFound |
| `ServiceProperties.EmptyRucIsChecked` | src/main/java/com/nttdata/banking/customer/services/impl/CustomerServiceImpl.java:132 | an empty RUC collides with a stored empty RUC, a null RUC collides with nothing |
| `ServiceProperties.LeadingSpaceTrims` | src/main/java/com/nttdata/banking/customer/utils/DocumentValidator.java:23-25 | a valid number with one leading space trims back to itself and passes the document check |
| `ServiceProperties.PaddedDocumentNumberNotDuplicate` | src/main/java/com/nttdata/banking/customer/services/impl/CustomerServiceImpl.java:131 | a stored DNI resubmitted with a leading space passes both the uniqueness and the document checks although it trims to the stored number |
| `ExceptionHandler.PutKeepsLastMessage` | src/main/java/com/nttdata/banking/customer/exception/GlobalExceptionHandler.java:71-76 | putting one more field error into a map that keeps the last message per field for the earlier errors keeps that property for all of them |
| `ExceptionHandler.FieldMessages` | src/main/java/com/nttdata/banking/customer/exception/GlobalExceptionHandler.java:71-76 | the map has exactly the reported fields, each with the message of the last error for that field |
| `ExceptionHandler.Handle` | src/main/java/com/nttdata/banking/customer/exception/GlobalExceptionHandler.java:22-102 | 404 exactly for CustomerNotFound, 409 for DuplicateCustomer, 400 for InvalidDocument and binding failures, 500 for anything else; path always "/api/v1/customers"; the titles are "Customer Not Found", "Duplicate Customer", "Invalid Document", "Validation Failed" and "Internal Server Error"; the exception message is passed on, except that binding failures get "Request validation failed" and unexpected errors the fixed generic message; only binding failures carry a field map |
| `ExceptionHandler.UnexpectedDetailHidden` | src/main/java/com/nttdata/banking/customer/exception/GlobalExceptionHandler.java:90-102 | the response to an unexpected error does not depend on its detail |
| `ExceptionHandler.BindingRejectionResponse` | src/main/java/com/nttdata/banking/customer/exception/GlobalExceptionHandler.java:67-87 | a request that fails binding gets a 400 whose field map has exactly the fields with a violated annotation as keys, each mapped to the message of one of its violated annotations |
| `ExceptionHandler.CreateFailureStatus` | src/main/java/com/nttdata/banking/customer/exception/GlobalExceptionHandler.java:37-64 | a failed create answers 400 or 409 |
| `ExceptionHandler.UpdateFailureStatus` | src/main/java/com/nttdata/banking/customer/exception/GlobalExceptionHandler.java:22-64 | a failed update answers 400, 404 or 409 |
| `ExceptionHandler.LookupFailureStatus` | src/main/java/com/nttdata/banking/customer/exception/GlobalExceptionHandler.java:22-34 | a failed delete or read by id answers 404 |

`Entity.IsPersonalCustomer` and `Entity.IsBusinessCustomer` are the
membership tests of `isPersonalCustomer` / `isBusinessCustomer`
(src/main/java/com/nttdata/banking/customer/models/entity/Customer.java:60-66);
`Entity.BuilderDefault` is the builder with only its defaults
(Customer.java:28-29, 52-58); `Entity.WellFormed` is the unique-index
invariant of Customer.java:37-48 together with each record's identifier
matching its key.

## Left out

- HTTP routing and response wrapping in `CustomerController` are framework code. The one decision there, listing only active customers when the query parameter `active` is exactly true and all customers otherwise, is not a separate member; `FindByActive` and `FindAll` are the two branches.
- `OpenAPIConfig` is documentation wiring.
- The older `models/Customer.java` (a list of types, a string document type) is a superseded duplicate and is not merged with the entity.
- The repository interface in the source does not declare the `existsBy*`, `findByEmail` or `findByActiveTrue` queries the service calls; persistence is the map `Store` with each query defined by its derived-query name.
- Concurrency: the three uniqueness queries run concurrently in the source; here they are three predicates of one store, and each service call is one atomic step. The gap between the uniqueness check and the save, and the duplicate-key error the database index would then raise, are not modelled.
- Logging is left out.
- The `@Email` format check is the library's; it is the parameter `isEmail`.
- The clock and the database's identifier generation are parameters; `CustomerService.Create` requires the new identifier to be unused, which is what the database guarantees.
- Store failures (surfacing as unexpected 500 errors) are not produced by any modelled operation, except the single-result finders' error when several records match an e-mail or document number (`CustomerService.NonUniqueResult`); its exact exception text is not modelled because the handler hides it.
- Lengths are counted in characters, not UTF-16 code units, so `@Size` differs from Java for characters outside the Basic Multilingual Plane.
- The framework reports binding violations in no specified order; `Requests.BindingViolations` lists them in declaration order, so which message survives in the field map when one field breaks two constraints is a choice of the model.
- The order of listed customers is the store's; the listings promise membership and count, not order.
- A Java `null` in the entity's `active` flag or `createdAt` is not modelled; both always hold a value in the modelled flows.
- The update saves under the identifier it looked up; in a well-formed store that is the record's own identifier.
- `CustomerType` has the two constants PERSONAL and BUSINESS, `CustomerNotFoundException` carries only a message, and the validation error body is the error body plus a field-to-message map; their serialisation annotations and accessors are not modelled.
- Timestamps in error bodies are the `now` parameter.

=== FILE: customer.dfy ===
/** The persisted customer entity, its builder defaults and state changes, and
    the customer store with the unique indexes declared on the entity. */
module Entity {
  import opened Results
  import opened Text
  import opened CustomerTypes
  import opened DocumentTypes
  import opened Requests

  /** Store-assigned identifier. */
  type Id = string

  /** A clock reading; the clock itself is a parameter of every operation
      that reads it. */
  type Timestamp = int

  datatype Customer = Customer(
    id: Option<Id>,
    customerType: set<CustomerType>,
    firstName: Option<string>,
    lastName: Option<string>,
    documentType: Option<DocumentType>,
    documentNumber: Option<string>,
    companyName: Option<string>,
    ruc: Option<string>,
    phoneNumber: Option<string>,
    email: Option<string>,
    address: Option<string>,
    createdAt: Timestamp,
    updatedAt: Option<Timestamp>,
    active: bool)

  /** `Customer.builder().build()` at time `now`: only the `@Builder.Default`
      fields are set (an empty type set, `createdAt`, `active`). */
  function BuilderDefault(now: Timestamp): Customer {
    Customer(None, {}, None, None, None, None, None, None, None, None, None, now, None, true)
  }

  predicate IsPersonalCustomer(c: Customer) {
    PERSONAL in c.customerType
  }

  predicate IsBusinessCustomer(c: Customer) {
    BUSINESS in c.customerType
  }

  /** `activate`: the record becomes active and is stamped; nothing else
      changes. */
  function Activate(c: Customer, now: Timestamp): (r: Customer)
    ensures r.active && r.updatedAt == Some(now)
    ensures r.(active := c.active, updatedAt := c.updatedAt) == c
  {
    c.(active := true, updatedAt := Some(now))
  }

  /** `deactivate`: the record becomes inactive and is stamped; nothing else
      changes. */
  function Deactivate(c: Customer, now: Timestamp): (r: Customer)
    ensures !r.active && r.updatedAt == Some(now)
    ensures r.(active := c.active, updatedAt := c.updatedAt) == c
  {
    c.(active := false, updatedAt := Some(now))
  }

  /** Activating twice is activating once, stamped with the later time; the
      same holds after a deactivation. */
  lemma ActivateIdempotent(c: Customer, t1: Timestamp, t2: Timestamp)
    ensures Activate(Activate(c, t1), t2) == Activate(c, t2)
    ensures Activate(Deactivate(c, t1), t2) == Activate(c, t2)
    ensures Activate(c, t1).active == Activate(Activate(c, t1), t2).active
  {
  }

  /** The business invariants a stored customer is meant to satisfy: at least
      one type; names for a personal customer; company name and an
      eleven-digit RUC for a business customer; a document number of the
      declared type's format (after trimming); the required contact fields. */
  predicate EntityInvariant(c: Customer) {
    && c.customerType != {}
    && (IsPersonalCustomer(c) ==> !IsBlank(c.firstName) && !IsBlank(c.lastName))
    && (IsBusinessCustomer(c) ==> !IsBlank(c.companyName) && c.ruc.Some? && IsRucNumber(c.ruc.value))
    && c.documentType.Some? && c.documentNumber.Some?
    && FormatOk(c.documentType.value, Trim(c.documentNumber.value))
    && c.phoneNumber.Some? && PhoneShape(c.phoneNumber.value)
    && !IsBlank(c.email) && !IsBlank(c.address)
  }

  /** The customer collection, keyed by identifier. */
  type Store = map<Id, Customer>

  /** Each record carries its own key as its identifier. */
  predicate IdsMatchKeys(store: Store) {
    forall k :: k in store ==> store[k].id == Some(k)
  }

  /** The unique indexes on the entity: `email` and `documentNumber` are
      unique (a missing value counts as a value, as in a non-sparse index);
      `ruc` is unique among the records that have one (a sparse index). */
  predicate UniqueIndexes(store: Store) {
    forall k1, k2 :: k1 in store && k2 in store && k1 != k2 ==>
      && store[k1].email != store[k2].email
      && store[k1].documentNumber != store[k2].documentNumber
      && (store[k1].ruc.Some? ==> store[k1].ruc != store[k2].ruc)
  }

  predicate WellFormed(store: Store) {
    IdsMatchKeys(store) && UniqueIndexes(store)
  }
}

=== FILE: customer_type.dfy ===
/** The customer-type tags a customer record carries (a customer may be both). */
module CustomerTypes {
  datatype CustomerType = PERSONAL | BUSINESS
}

=== FILE: customer_validator.dfy ===
/** `CustomerValidator.validateCustomerRequest`: four business rules run in a
    fixed order (customer types, personal fields, business fields, document),
    stopping at the first one that throws. Every failure is `InvalidDocument`. */
module CustomerValidator {
  import opened Results
  import opened Text
  import opened CustomerTypes
  import opened DocumentTypes
  import opened Errors
  import opened Requests
  import opened DocumentValidator

  const TypesRequiredMessage := "At least one customer type must be specified"
  const FirstNameRequiredMessage := "First name is required for personal customers"
  const LastNameRequiredMessage := "Last name is required for personal customers"
  const CompanyNameRequiredMessage := "Company name is required for business customers"
  const RucRequiredMessage := "RUC is required for business customers"

  // The rules as statements about a request.

  predicate TypesOk(r: CustomerRequest) {
    r.customerType.Some? && r.customerType.value != {}
  }

  predicate PersonalOk(r: CustomerRequest)
    requires r.customerType.Some?
  {
    PERSONAL in r.customerType.value ==> !IsBlank(r.firstName) && !IsBlank(r.lastName)
  }

  predicate BusinessOk(r: CustomerRequest)
    requires r.customerType.Some?
  {
    BUSINESS in r.customerType.value ==>
      !IsBlank(r.companyName) && !IsBlank(r.ruc) && IsRucNumber(Trim(r.ruc.value))
  }

  predicate DocumentOk(r: CustomerRequest) {
    r.documentType.Some? && r.documentNumber.Some?
    && FormatOk(r.documentType.value, Trim(r.documentNumber.value))
  }

  /** All four rules at once. */
  predicate RulesHold(r: CustomerRequest) {
    TypesOk(r) && PersonalOk(r) && BusinessOk(r) && DocumentOk(r)
  }

  // The rules as `validateCustomerRequest` runs them.

  function ValidateCustomerTypes(r: CustomerRequest): Outcome<Error> {
    if r.customerType.None? || |r.customerType.value| == 0 then Fail(InvalidDocument(TypesRequiredMessage)) else Pass
  }

  /** Reached only once the type set is known to be non-null. */
  function ValidatePersonalCustomerFields(r: CustomerRequest): Outcome<Error>
    requires r.customerType.Some?
  {
    if PERSONAL in r.customerType.value then
      if IsBlank(r.firstName) then Fail(InvalidDocument(FirstNameRequiredMessage))
      else if IsBlank(r.lastName) then Fail(InvalidDocument(LastNameRequiredMessage))
      else Pass
    else Pass
  }

  /** Reached only once the type set is known to be non-null. */
  function ValidateBusinessCustomerFields(r: CustomerRequest): Outcome<Error>
    requires r.customerType.Some?
  {
    if BUSINESS in r.customerType.value then
      if IsBlank(r.companyName) then Fail(InvalidDocument(CompanyNameRequiredMessage))
      else if IsBlank(r.ruc) then Fail(InvalidDocument(RucRequiredMessage))
      else ValidateRucFormat(r.ruc)
    else Pass
  }

  function ValidateDocuments(r: CustomerRequest): Outcome<Error> {
    ValidateDocumentFormat(r.documentType, r.documentNumber)
  }

  /** `validateCustomerRequest`. It passes exactly when all four rules hold;
      otherwise it reports the first rule that fails, and within a rule the
      first field that fails. */
  function ValidateCustomerRequest(r: CustomerRequest): (res: Outcome<Error>)
    ensures res.Pass? <==> RulesHold(r)
    ensures res.Fail? ==> res.error.InvalidDocument?
    ensures !TypesOk(r) ==> res == Fail(InvalidDocument(TypesRequiredMessage))
    ensures TypesOk(r) && !PersonalOk(r) ==>
      res == Fail(InvalidDocument(if IsBlank(r.firstName) then FirstNameRequiredMessage else LastNameRequiredMessage))
    ensures TypesOk(r) && PersonalOk(r) && !BusinessOk(r) ==>
      res == Fail(InvalidDocument(
        if IsBlank(r.companyName) then CompanyNameRequiredMessage
        else if IsBlank(r.ruc) then RucRequiredMessage
        else RucFormatMessage))
    ensures TypesOk(r) && PersonalOk(r) && BusinessOk(r) ==>
      res == ValidateDocumentFormat(r.documentType, r.documentNumber)
  {
    var types := ValidateCustomerTypes(r);
    if types.Fail? then types
    else
      var personal := ValidatePersonalCustomerFields(r);
      if personal.Fail? then personal
      else
        var business := ValidateBusinessCustomerFields(r);
        if business.Fail? then business
        else ValidateDocuments(r)
  }

  /** Company name and RUC are never inspected unless BUSINESS is a type. */
  lemma BusinessFieldsIgnoredWithoutBusiness(r: CustomerRequest, companyName: Option<string>, ruc: Option<string>)
    requires r.customerType.Some? && BUSINESS !in r.customerType.value
    ensures ValidateCustomerRequest(r) == ValidateCustomerRequest(r.(companyName := companyName, ruc := ruc))
  {
  }

  /** Names are never inspected unless PERSONAL is a type. */
  lemma NamesIgnoredWithoutPersonal(r: CustomerRequest, firstName: Option<string>, lastName: Option<string>)
    requires r.customerType.Some? && PERSONAL !in r.customerType.value
    ensures ValidateCustomerRequest(r) == ValidateCustomerRequest(r.(firstName := firstName, lastName := lastName))
  {
  }

  /** A personal customer with a blank last name is rejected for it. */
  lemma PersonalBlankLastNameRejected(r: CustomerRequest)
    requires r.customerType == Some({PERSONAL})
    requires !IsBlank(r.firstName) && IsBlank(r.lastName)
    ensures ValidateCustomerRequest(r) == Fail(InvalidDocument(LastNameRequiredMessage))
  {
    assert PERSONAL in r.customerType.value;
    assert TypesOk(r) && !PersonalOk(r);
  }

  /** The same personal customer with last name "Smith" clears the name
      rules, leaving the outcome to the document check. */
  lemma PersonalWithLastNamePasses(r: CustomerRequest)
    requires r.customerType == Some({PERSONAL})
    requires !IsBlank(r.firstName) && r.lastName == Some("Smith")
    ensures ValidateCustomerRequest(r) == ValidateDocumentFormat(r.documentType, r.documentNumber)
  {
    assert PERSONAL in r.customerType.value && BUSINESS !in r.customerType.value;
    assert !IsBlank(r.lastName) by { assert !IsTrimmed("Smith"[0]); }
    assert TypesOk(r) && PersonalOk(r) && BusinessOk(r);
  }

  /** A business customer whose RUC is "123" is rejected for the RUC format,
      once the company name is given. */
  lemma BusinessShortRucExample(r: CustomerRequest)
    requires r.customerType == Some({BUSINESS})
    requires !IsBlank(r.companyName) && r.ruc == Some("123")
    ensures ValidateCustomerRequest(r) == Fail(InvalidDocument(RucFormatMessage))
  {
    assert BUSINESS in r.customerType.value && PERSONAL !in r.customerType.value;
    assert !IsBlank(r.ruc) by { assert !IsTrimmed("123"[0]); }
    assert !IsRucNumber(Trim("123"));
    assert TypesOk(r) && PersonalOk(r) && !BusinessOk(r);
  }
}

=== FILE: document_type.dfy ===
/** The document-format registry: each document type with its display name,
    maximum length and format pattern, and the format predicate
    `isValidFormat`. */
module DocumentTypes {
  import opened Results
  import opened Text
  import opened Patterns

  datatype DocumentType = DNI | PASSPORT | RUC | FOREIGNER_CARD

  function Name(t: DocumentType): string {
    match t
    case DNI => "DNI"
    case PASSPORT => "PASSPORT"
    case RUC => "RUC"
    case FOREIGNER_CARD => "FOREIGNER_CARD"
  }

  function MaxLength(t: DocumentType): nat {
    match t
    case DNI => 8
    case PASSPORT => 12
    case RUC => 11
    case FOREIGNER_CARD => 12
  }

  /** The pattern as the registry spells it (quoted in error messages). */
  function PatternText(t: DocumentType): string {
    match t
    case DNI => "^\\d{8}$"
    case PASSPORT => "^[A-Z0-9]{6,12}$"
    case RUC => "^\\d{11}$"
    case FOREIGNER_CARD => "^[A-Z0-9]{6,12}$"
  }

  /** The same pattern, written in the regular-expression model. */
  function PatternOf(t: DocumentType): Pattern {
    match t
    case DNI => [[Rep(Digit, 8, 8)]]
    case PASSPORT => [[Rep(UpperOrDigit, 6, 12)]]
    case RUC => [[Rep(Digit, 11, 11)]]
    case FOREIGNER_CARD => [[Rep(UpperOrDigit, 6, 12)]]
  }

  /** Exactly eleven ASCII digits: the RUC shape, used both by the registry
      and by the standalone RUC check. */
  predicate IsRucNumber(s: string) {
    |s| == 11 && AllDigits(s)
  }

  /** The accepted numbers of each type, stated directly. */
  predicate FormatOk(t: DocumentType, s: string) {
    match t
    case DNI => |s| == 8 && AllDigits(s)
    case RUC => IsRucNumber(s)
    case PASSPORT => 6 <= |s| <= 12 && AllUpperAlnum(s)
    case FOREIGNER_CARD => 6 <= |s| <= 12 && AllUpperAlnum(s)
  }

  /** The registry's pattern accepts exactly the numbers `FormatOk` describes. */
  lemma PatternAgrees(t: DocumentType, s: string)
    ensures FullMatch(PatternOf(t), s) <==> FormatOk(t, s)
  {
    var p := PatternOf(t);
    SingleRep(p[0][0], s);
    assert p[0] == [p[0][0]];
    assert FullMatch(p, s) <==> MatchesAll(p[0], s);
    assert AllInClass(s, Digit) <==> AllDigits(s);
    assert AllInClass(s, UpperOrDigit) <==> AllUpperAlnum(s);
  }

  /** Every accepted number starts with a character `trim` would keep, so no
      accepted number is blank. */
  lemma FormatOkNotBlank(t: DocumentType, s: string)
    requires FormatOk(t, s)
    ensures |s| > 0 && !IsTrimmed(s[0]) && !IsTrimmed(s[|s| - 1])
    ensures !IsBlank(Some(s))
  {
    assert !IsTrimmed(s[0]);
  }

  /** `DocumentType.isValidFormat`: false for null or blank input, otherwise a
      whole-string match of the type's pattern; the number is not trimmed. */
  function IsValidFormat(t: DocumentType, number: Option<string>): (r: bool)
    ensures r <==> number.Some? && FormatOk(t, number.value)
    ensures IsBlank(number) ==> !r
    ensures r ==> |number.value| <= MaxLength(t)
  {
    if number.None? || IsBlank(number) then
      assert number.Some? ==> !FormatOk(t, number.value) by {
        if number.Some? && FormatOk(t, number.value) { FormatOkNotBlank(t, number.value); }
      }
      false
    else
      PatternAgrees(t, number.value);
      FullMatch(PatternOf(t), number.value)
  }

  /** PASSPORT and FOREIGNER_CARD accept the same numbers. */
  lemma PassportAndForeignerCardAgree(number: Option<string>)
    ensures IsValidFormat(PASSPORT, number) == IsValidFormat(FOREIGNER_CARD, number)
  {
  }

  /** The format check does not trim: a valid number with a space added on
      either side is rejected. */
  lemma PaddingRejected(t: DocumentType, s: string)
    requires FormatOk(t, s)
    ensures !IsValidFormat(t, Some(" " + s))
    ensures !IsValidFormat(t, Some(s + " "))
  {
    assert (" " + s)[0] == ' ';
    assert (s + " ")[|s|] == ' ';
  }

  /** Lower-case letters are outside `[A-Z0-9]`: a passport or foreign-card
      number containing one is rejected. */
  lemma LowercaseRejected(t: DocumentType, s: string, i: nat)
    requires t == PASSPORT || t == FOREIGNER_CARD
    requires i < |s| && 'a' <= s[i] <= 'z'
    ensures !IsValidFormat(t, Some(s))
  {
    assert !IsUpperAlnum(s[i]);
  }
}

=== FILE: document_validator.dfy ===
/** `DocumentValidator`: the stand-alone document-number and RUC checks, which
    trim their input before matching and throw `InvalidDocument` on failure. */
module DocumentValidator {
  import opened Results
  import opened Text
  import opened Patterns
  import opened DocumentTypes
  import opened Errors

  const TypeRequiredMessage := "Document type cannot be null"
  const NumberRequiredMessage := "Document number cannot be empty"
  const RucFormatMessage := "RUC must be exactly 11 digits"

  function FormatMessage(t: DocumentType): string {
    "Invalid format for document type " + Name(t) + ". Expected pattern: " + PatternText(t)
  }

  /** `validateDocumentFormat`: the type must be present, the number non-blank,
      and the trimmed number must satisfy the type's format. */
  function ValidateDocumentFormat(t: Option<DocumentType>, number: Option<string>): (r: Outcome<Error>)
    ensures r.Pass? <==> t.Some? && number.Some? && FormatOk(t.value, Trim(number.value))
    ensures t.None? ==> r == Fail(InvalidDocument(TypeRequiredMessage))
    ensures t.Some? && IsBlank(number) ==> r == Fail(InvalidDocument(NumberRequiredMessage))
    ensures t.Some? && !IsBlank(number) && r.Fail? ==> r == Fail(InvalidDocument(FormatMessage(t.value)))
  {
    if t.None? then
      Fail(InvalidDocument(TypeRequiredMessage))
    else if IsBlank(number) then
      assert number.Some? ==> !FormatOk(t.value, Trim(number.value)) by {
        if number.Some? && FormatOk(t.value, Trim(number.value)) { FormatOkNotBlank(t.value, Trim(number.value)); }
      }
      Fail(InvalidDocument(NumberRequiredMessage))
    else if !IsValidFormat(t.value, Some(Trim(number.value))) then
      Fail(InvalidDocument(FormatMessage(t.value)))
    else
      Pass
  }

  /** Unlike `isValidFormat`, the validator accepts a valid number surrounded by
      padding, because it trims first. */
  lemma PaddedNumberAccepted(t: DocumentType, n: string, pre: string, post: string)
    requires FormatOk(t, n)
    requires AllTrimmed(pre) && AllTrimmed(post)
    ensures ValidateDocumentFormat(Some(t), Some(pre + n + post)) == Pass
  {
    FormatOkNotBlank(t, n);
    TrimPadded(pre, n, post);
  }

  /** `validateRucFormat`: a null or blank RUC is not checked; any other RUC
      must be eleven digits once trimmed. */
  function ValidateRucFormat(ruc: Option<string>): (r: Outcome<Error>)
    ensures IsBlank(ruc) ==> r == Pass
    ensures !IsBlank(ruc) ==> (r.Pass? <==> IsRucNumber(Trim(ruc.value)))
    ensures r.Fail? ==> r == Fail(InvalidDocument(RucFormatMessage))
  {
    if !IsBlank(ruc) then
      PatternAgrees(RUC, Trim(ruc.value));
      if !FullMatch(PatternOf(RUC), Trim(ruc.value)) then Fail(InvalidDocument(RucFormatMessage)) else Pass
    else
      Pass
  }

  /** On a non-blank value the RUC check and the document check for type RUC
      accept the same strings. */
  lemma RucCheckAgreesWithRegistry(ruc: string)
    requires !IsBlank(Some(ruc))
    ensures ValidateRucFormat(Some(ruc)).Pass? == ValidateDocumentFormat(Some(RUC), Some(ruc)).Pass?
  {
  }
}

=== FILE: errors.dfy ===
/** The service's exceptions as data: each thrown exception becomes one
    constructor carrying the exception message. */
module Errors {

  /** The field a uniqueness conflict was reported for. */
  datatype UniqueField = EmailField | DocumentNumberField | RucField

  /** One rejected field of a request-binding failure, with the constraint's
      message. */
  datatype FieldError = FieldError(field: string, message: string)

  datatype Error =
    | CustomerNotFound(message: string)
    | DuplicateCustomer(field: UniqueField, message: string)
    | InvalidDocument(message: string)
      /** The framework's binding exception, listing every violated constraint. */
    | BindingFailure(fieldErrors: seq<FieldError>)
      /** Any other exception (a store failure, say), with its own message. */
    | Unexpected(detail: string)
}

=== FILE: exception_handler.dfy ===
/** `GlobalExceptionHandler`: every error becomes a uniform error body with a
    status, a title, a message and the fixed API path. Unexpected errors are
    reported with a generic message that reveals nothing about their cause. */
module ExceptionHandler {
  import opened Results
  import opened Errors
  import opened Entity
  import opened Requests
  import opened CustomerService

  datatype ErrorResponse = ErrorResponse(
    timestamp: Timestamp,
    status: int,
    error: string,
    message: string,
    path: string,
    /** Present only in the response to a binding failure. */
    validationErrors: Option<map<string, string>>)

  const ApiPath := "/api/v1/customers"
  const GenericMessage := "An unexpected error occurred"

  /** `m` holds, for each field reported in `errs`, the message of the last
      error reported for it. */
  predicate LastMessageWins(errs: seq<FieldError>, m: map<string, string>) {
    && m.Keys == (set i | 0 <= i < |errs| :: errs[i].field)
    && forall f :: f in m ==>
      exists i :: 0 <= i < |errs| && errs[i].field == f && m[f] == errs[i].message
        && forall j :: i < j < |errs| ==> errs[j].field != f
  }

  /** Putting one more error into a map that is right for the earlier errors
      gives a map that is right for all of them. */
  lemma {:induction false} PutKeepsLastMessage(errs: seq<FieldError>, m: map<string, string>)
    requires |errs| > 0
    requires LastMessageWins(errs[..|errs| - 1], m)
    ensures LastMessageWins(errs, m[errs[|errs| - 1].field := errs[|errs| - 1].message])
  {
    var n := |errs| - 1;
    var front := errs[..n];
    var last := errs[n];
    var m' := m[last.field := last.message];
    assert forall i :: 0 <= i < n ==> front[i] == errs[i];
    assert m'.Keys == (set i | 0 <= i < |errs| :: errs[i].field) by {
      assert (set i | 0 <= i < |errs| :: errs[i].field) == (set i | 0 <= i < n :: front[i].field) + {last.field};
    }
    forall f | f in m'
      ensures exists i :: (0 <= i < |errs| && errs[i].field == f && m'[f] == errs[i].message
        && forall j :: i < j < |errs| ==> errs[j].field != f)
    {
      if f == last.field {
        assert errs[n].field == f && m'[f] == errs[n].message;
      } else {
        var i :| 0 <= i < n && front[i].field == f && m[f] == front[i].message
          && forall j :: i < j < n ==> front[j].field != f;
        assert errs[i].field == f && m'[f] == errs[i].message;
      }
    }
  }

  /** The binding errors folded into a field-to-message map, in order: a later
      error for a field replaces an earlier one. */
  function FieldMessages(errs: seq<FieldError>): (m: map<string, string>)
    ensures LastMessageWins(errs, m)
    decreases |errs|
  {
    if |errs| == 0 then map[]
    else
      var last := errs[|errs| - 1];
      var m := FieldMessages(errs[..|errs| - 1]);
      PutKeepsLastMessage(errs, m);
      m[last.field := last.message]
  }

  /** The handlers, one per error kind. */
  function Handle(e: Error, now: Timestamp): (r: ErrorResponse)
    ensures r.path == ApiPath && r.timestamp == now
    ensures r.status == 404 <==> e.CustomerNotFound?
    ensures r.status == 409 <==> e.DuplicateCustomer?
    ensures r.status == 400 <==> e.InvalidDocument? || e.BindingFailure?
    ensures r.status == 500 <==> e.Unexpected?
    ensures r.validationErrors.Some? <==> e.BindingFailure?
    ensures e.BindingFailure? ==> r.validationErrors.value == FieldMessages(e.fieldErrors)
    ensures e.CustomerNotFound? ==> r.error == "Customer Not Found"
    ensures e.DuplicateCustomer? ==> r.error == "Duplicate Customer"
    ensures e.InvalidDocument? ==> r.error == "Invalid Document"
    ensures e.BindingFailure? ==> r.error == "Validation Failed" && r.message == "Request validation failed"
    ensures e.Unexpected? ==> r.error == "Internal Server Error"
    ensures e.CustomerNotFound? || e.DuplicateCustomer? || e.InvalidDocument? ==> r.message == e.message
    ensures e.Unexpected? ==> r.message == GenericMessage
  {
    match e
    case CustomerNotFound(msg) => ErrorResponse(now, 404, "Customer Not Found", msg, ApiPath, None)
    case DuplicateCustomer(_, msg) => ErrorResponse(now, 409, "Duplicate Customer", msg, ApiPath, None)
    case InvalidDocument(msg) => ErrorResponse(now, 400, "Invalid Document", msg, ApiPath, None)
    case BindingFailure(errs) =>
      ErrorResponse(now, 400, "Validation Failed", "Request validation failed", ApiPath, Some(FieldMessages(errs)))
    case Unexpected(_) => ErrorResponse(now, 500, "Internal Server Error", GenericMessage, ApiPath, None)
  }

  /** Nothing of an unexpected error's own detail reaches the caller. */
  lemma UnexpectedDetailHidden(a: string, b: string, now: Timestamp)
    ensures Handle(Unexpected(a), now) == Handle(Unexpected(b), now)
  {
  }

  /** A request rejected by binding gets a 400 whose map names exactly the
      fields with a violated annotation, each with the message of one of its
      violated annotations. */
  lemma {:induction false} BindingRejectionResponse(req: CustomerRequest, isEmail: string -> bool, now: Timestamp)
    requires !BindingValid(req, isEmail)
    ensures var r := Handle(BindingFailure(BindingViolations(req, isEmail)), now);
      && r.status == 400 && r.validationErrors.Some? && |r.validationErrors.value| > 0
      && (forall a :: !Holds(a, req, isEmail) ==> FieldOf(a) in r.validationErrors.value)
      && (forall f :: f in r.validationErrors.value ==>
            exists a :: !Holds(a, req, isEmail) && FieldOf(a) == f && r.validationErrors.value[f] == MessageOf(a))
  {
    var errs := BindingViolations(req, isEmail);
    var m := FieldMessages(errs);
    assert errs[0].field in (set i | 0 <= i < |errs| :: errs[i].field);
    forall a | !Holds(a, req, isEmail) ensures FieldOf(a) in m {
      var i :| 0 <= i < |errs| && errs[i] == Report(a);
      assert FieldOf(a) in (set i | 0 <= i < |errs| :: errs[i].field);
    }
    forall f | f in m
      ensures exists a :: !Holds(a, req, isEmail) && FieldOf(a) == f && m[f] == MessageOf(a)
    {
      var i :| 0 <= i < |errs| && errs[i].field == f && m[f] == errs[i].message;
      assert errs[i] in errs;
      var a :| !Holds(a, req, isEmail) && errs[i] == Report(a);
    }
  }

  // The statuses each service operation can answer with.

  /** A failed create answers 400 or 409. */
  lemma CreateFailureStatus(store: Store, req: CustomerRequest, now: Timestamp, freshId: Id)
    requires freshId !in store
    requires Create(store, req, now, freshId).result.Failure?
    ensures Handle(Create(store, req, now, freshId).result.error, now).status in {400, 409}
  {
  }

  /** A failed update answers 400, 404 or 409. */
  lemma UpdateFailureStatus(store: Store, id: Id, req: CustomerRequest, now: Timestamp)
    requires Update(store, id, req, now).result.Failure?
    ensures Handle(Update(store, id, req, now).result.error, now).status in {400, 404, 409}
  {
  }

  /** A failed delete or read by id answers 404. */
  lemma LookupFailureStatus(store: Store, id: Id, now: Timestamp)
    ensures DeleteById(store, id).result.Failure? ==> Handle(DeleteById(store, id).result.error, now).status == 404
    ensures FindById(store, id).Failure? ==> Handle(FindById(store, id).error, now).status == 404
  {
  }
}

=== FILE: mapper.dfy ===
/** `CustomerMapper`: request to new entity, entity to response, and the
    in-place update of an entity from a request. The update skips null
    request fields (null-value property strategy IGNORE). */
module Mapper {
  import opened Results
  import opened Requests
  import opened CustomerValidator
  import opened Entity
  import opened Responses

  /** The ten request fields hold the same values in `c`, reading a null type
      set as the empty set. */
  predicate CarriesRequest(req: CustomerRequest, c: Customer) {
    && c.customerType == (if req.customerType.Some? then req.customerType.value else {})
    && c.firstName == req.firstName && c.lastName == req.lastName
    && c.documentType == req.documentType && c.documentNumber == req.documentNumber
    && c.companyName == req.companyName && c.ruc == req.ruc
    && c.phoneNumber == req.phoneNumber && c.email == req.email && c.address == req.address
  }

  /** `toEntity`: id and updatedAt are left unset, active is the constant
      true and createdAt is the clock; every request field is carried over. A
      null type set leaves the builder's empty default in place. */
  function ToEntity(req: CustomerRequest, now: Timestamp): (c: Customer)
    ensures c.id.None? && c.updatedAt.None?
    ensures c.active && c.createdAt == now
    ensures CarriesRequest(req, c)
  {
    var b := BuilderDefault(now);
    b.(customerType := if req.customerType.Some? then req.customerType.value else b.customerType,
       firstName := req.firstName, lastName := req.lastName,
       documentType := req.documentType, documentNumber := req.documentNumber,
       companyName := req.companyName, ruc := req.ruc,
       phoneNumber := req.phoneNumber, email := req.email, address := req.address,
       active := true, createdAt := now)
  }

  /** The request with every field null. */
  const EmptyRequest := CustomerRequest(None, None, None, None, None, None, None, None, None, None)

  /** Mapping an all-null request yields exactly the builder's defaults. */
  lemma EmptyRequestGivesBuilderDefault(now: Timestamp)
    ensures ToEntity(EmptyRequest, now) == BuilderDefault(now)
  {
  }

  /** `toResponseDto`: every entity field is copied. */
  function ToResponseDto(c: Customer): (r: CustomerResponse)
    ensures r.id == c.id && r.customerType == c.customerType
    ensures r.firstName == c.firstName && r.lastName == c.lastName
    ensures r.documentType == c.documentType && r.documentNumber == c.documentNumber
    ensures r.companyName == c.companyName && r.ruc == c.ruc
    ensures r.phoneNumber == c.phoneNumber && r.email == c.email && r.address == c.address
    ensures r.createdAt == c.createdAt && r.updatedAt == c.updatedAt && r.active == c.active
  {
    CustomerResponse(c.id, c.customerType, c.firstName, c.lastName, c.documentType, c.documentNumber,
                     c.companyName, c.ruc, c.phoneNumber, c.email, c.address,
                     c.createdAt, c.updatedAt, c.active)
  }

  /** The response loses nothing: distinct entities give distinct responses. */
  lemma ToResponseDtoInjective(a: Customer, b: Customer)
    ensures ToResponseDto(a) == ToResponseDto(b) ==> a == b
  {
  }

  /** The response to a freshly mapped request agrees with the request on
      every shared field; only id, timestamps and active are the server's. */
  lemma ResponseOfNewEntityAgrees(req: CustomerRequest, now: Timestamp)
    ensures var r := ToResponseDto(ToEntity(req, now));
      && r.customerType == (if req.customerType.Some? then req.customerType.value else {})
      && r.firstName == req.firstName && r.lastName == req.lastName
      && r.documentType == req.documentType && r.documentNumber == req.documentNumber
      && r.companyName == req.companyName && r.ruc == req.ruc
      && r.phoneNumber == req.phoneNumber && r.email == req.email && r.address == req.address
      && r.id.None? && r.createdAt == now && r.updatedAt.None? && r.active
  {
  }

  /** A nullable source field overwrites its target only when non-null. */
  function Overwrite<T>(src: Option<T>, target: Option<T>): Option<T> {
    if src.Some? then src else target
  }

  /** `updateEntityFromDto`: id, createdAt and active are kept; updatedAt is
      the clock; each request field replaces the entity's field unless it is
      null, in which case the entity's field stays. */
  function UpdateEntityFromDto(req: CustomerRequest, c: Customer, now: Timestamp): (u: Customer)
    ensures u.id == c.id && u.createdAt == c.createdAt && u.active == c.active
    ensures u.updatedAt == Some(now)
    ensures u.customerType == (if req.customerType.Some? then req.customerType.value else c.customerType)
    ensures req.firstName.None? ==> u.firstName == c.firstName
    ensures req.firstName.Some? ==> u.firstName == req.firstName
    ensures req.lastName.None? ==> u.lastName == c.lastName
    ensures req.lastName.Some? ==> u.lastName == req.lastName
    ensures req.documentType.None? ==> u.documentType == c.documentType
    ensures req.documentType.Some? ==> u.documentType == req.documentType
    ensures req.documentNumber.None? ==> u.documentNumber == c.documentNumber
    ensures req.documentNumber.Some? ==> u.documentNumber == req.documentNumber
    ensures req.companyName.None? ==> u.companyName == c.companyName
    ensures req.companyName.Some? ==> u.companyName == req.companyName
    ensures req.ruc.None? ==> u.ruc == c.ruc
    ensures req.ruc.Some? ==> u.ruc == req.ruc
    ensures req.phoneNumber.None? ==> u.phoneNumber == c.phoneNumber
    ensures req.phoneNumber.Some? ==> u.phoneNumber == req.phoneNumber
    ensures req.email.None? ==> u.email == c.email
    ensures req.email.Some? ==> u.email == req.email
    ensures req.address.None? ==> u.address == c.address
    ensures req.address.Some? ==> u.address == req.address
  {
    c.(customerType := if req.customerType.Some? then req.customerType.value else c.customerType,
       firstName := Overwrite(req.firstName, c.firstName),
       lastName := Overwrite(req.lastName, c.lastName),
       documentType := Overwrite(req.documentType, c.documentType),
       documentNumber := Overwrite(req.documentNumber, c.documentNumber),
       companyName := Overwrite(req.companyName, c.companyName),
       ruc := Overwrite(req.ruc, c.ruc),
       phoneNumber := Overwrite(req.phoneNumber, c.phoneNumber),
       email := Overwrite(req.email, c.email),
       address := Overwrite(req.address, c.address),
       updatedAt := Some(now))
  }

  /** An all-null request changes nothing but the update stamp. */
  lemma EmptyUpdateOnlyStamps(c: Customer, now: Timestamp)
    ensures UpdateEntityFromDto(EmptyRequest, c, now) == c.(updatedAt := Some(now))
  {
  }

  /** Applying the same request twice is applying it once, at the later time. */
  lemma UpdateIdempotent(req: CustomerRequest, c: Customer, t1: Timestamp, t2: Timestamp)
    ensures UpdateEntityFromDto(req, UpdateEntityFromDto(req, c, t1), t2) == UpdateEntityFromDto(req, c, t2)
  {
  }

  /** A request that passes binding and the business rules becomes, on create,
      an entity satisfying the entity invariants. Binding is what makes the
      stored RUC exactly eleven digits: the business rule alone would accept
      it with surrounding padding. */
  lemma {:induction false} NewEntityInvariant(req: CustomerRequest, isEmail: string -> bool, now: Timestamp)
    requires BindingValid(req, isEmail) && RulesHold(req)
    ensures EntityInvariant(ToEntity(req, now))
  {
    BindingValidMeans(req, isEmail);
  }

  /** The same holds after an update, whatever the record held before: the
      fields the invariants need are non-null in a bound request, so they are
      all overwritten. */
  lemma {:induction false} UpdatedEntityInvariant(req: CustomerRequest, isEmail: string -> bool, c: Customer, now: Timestamp)
    requires BindingValid(req, isEmail) && RulesHold(req)
    ensures EntityInvariant(UpdateEntityFromDto(req, c, now))
  {
    BindingValidMeans(req, isEmail);
    assert EntityInvariant(ToEntity(req, now)) by { NewEntityInvariant(req, isEmail, now); }
  }
}

=== FILE: patterns.dfy ===
/** A small model of the anchored Java regular expressions the service uses
    (`String.matches` and `@Pattern`, both of which must consume the whole
    input). A pattern is a list of alternatives; each alternative is a
    sequence of bounded repetitions of one character class. This is enough to
    write every pattern of the service literally:

      `^\d{8}$`              [[Rep(Digit, 8, 8)]]
      `^[A-Z0-9]{6,12}$`     [[Rep(UpperOrDigit, 6, 12)]]
      `^\d{11}$`             [[Rep(Digit, 11, 11)]]
      `^\d{11}$|^$`          [[Rep(Digit, 11, 11)], []]
      `^\+?[1-9]\d{1,14}$`   [[Rep(Exactly('+'), 0, 1), Rep(NonZeroDigit, 1, 1), Rep(Digit, 1, 14)]]
*/
module Patterns {
  import opened Text

  datatype CharClass =
    | Digit                 // \d, that is [0-9]
    | NonZeroDigit          // [1-9]
    | UpperOrDigit          // [A-Z0-9]
    | Exactly(c: char)      // an escaped literal such as \+

  /** `cls{min,max}`; `?` is `{0,1}` and `{n}` is `{n,n}`. */
  datatype Term = Rep(cls: CharClass, min: nat, max: nat)

  type Alternative = seq<Term>
  type Pattern = seq<Alternative>

  predicate InClass(c: char, cls: CharClass) {
    match cls
    case Digit => IsAsciiDigit(c)
    case NonZeroDigit => '1' <= c <= '9'
    case UpperOrDigit => IsUpperAlnum(c)
    case Exactly(d) => c == d
  }

  predicate AllInClass(s: string, cls: CharClass) {
    forall i :: 0 <= i < |s| ==> InClass(s[i], cls)
  }

  /** `s` is consumed entirely by the term sequence `ts`: the first term takes
      some allowed number of characters of its class, and the rest of the
      sequence matches what is left. */
  predicate MatchesAll(ts: Alternative, s: string)
    decreases |ts|
  {
    if |ts| == 0 then |s| == 0
    else
      exists n :: ts[0].min <= n <= ts[0].max && n <= |s| && AllInClass(s[..n], ts[0].cls) && MatchesAll(ts[1..], s[n..])
  }

  /** Whole-input match against some alternative of the pattern. */
  predicate FullMatch(p: Pattern, s: string) {
    exists i :: 0 <= i < |p| && MatchesAll(p[i], s)
  }

  /** A single repetition matches exactly the strings of its class whose
      length lies in its bounds. */
  lemma SingleRep(t: Term, s: string)
    ensures MatchesAll([t], s) <==> t.min <= |s| <= t.max && AllInClass(s, t.cls)
  {
    assert [t][1..] == [];
    if t.min <= |s| <= t.max && AllInClass(s, t.cls) {
      assert s[..|s|] == s;
      assert MatchesAll([t][1..], s[|s|..]);
    }
  }

  /** A sequence headed by a term with a fixed count `k` consumes exactly the
      first `k` characters with it. */
  lemma FixedHead(k: nat, cls: CharClass, rest: Alternative, s: string)
    ensures MatchesAll([Rep(cls, k, k)] + rest, s)
        <==> k <= |s| && AllInClass(s[..k], cls) && MatchesAll(rest, s[k..])
  {
    assert ([Rep(cls, k, k)] + rest)[1..] == rest;
  }

  /** A sequence headed by an optional literal `c?`: the literal is taken when
      it is there and the rest matches after it, or skipped. */
  lemma OptionalHead(c: char, rest: Alternative, s: string)
    ensures MatchesAll([Rep(Exactly(c), 0, 1)] + rest, s)
        <==> (|s| > 0 && s[0] == c && MatchesAll(rest, s[1..])) || MatchesAll(rest, s)
  {
    var ts := [Rep(Exactly(c), 0, 1)] + rest;
    assert ts[1..] == rest;
    assert s[..0] == [] && s[0..] == s;
    if |s| > 0 && s[0] == c && MatchesAll(rest, s[1..]) {
      assert AllInClass(s[..1], Exactly(c));
    }
  }
}

=== FILE: request.dfy ===
/** `CustomerRequestDTO`: the request body of create and update, and the
    bean-validation constraints the framework checks while binding it. Every
    field may be null; `@Size` and `@Pattern` accept null, `@NotNull`,
    `@NotBlank` and `@NotEmpty` do not. */
module Requests {
  import opened Results
  import opened Text
  import opened Patterns
  import opened CustomerTypes
  import opened DocumentTypes
  import opened Errors

  datatype CustomerRequest = CustomerRequest(
    customerType: Option<set<CustomerType>>,
    firstName: Option<string>,
    lastName: Option<string>,
    documentType: Option<DocumentType>,
    documentNumber: Option<string>,
    companyName: Option<string>,
    ruc: Option<string>,
    phoneNumber: Option<string>,
    email: Option<string>,
    address: Option<string>)

  /** `@Pattern(regexp = "^\\d{11}$|^$")` on `ruc`. */
  const RucConstraint: Pattern := [[Rep(Digit, 11, 11)], []]

  /** `@Pattern(regexp = "^\\+?[1-9]\\d{1,14}$")` on `phoneNumber`. */
  const PhoneConstraint: Pattern := [[Rep(Exactly('+'), 0, 1), Rep(NonZeroDigit, 1, 1), Rep(Digit, 1, 14)]]

  /** `@Size(max = n)`: null, or at most `n` characters. */
  predicate SizeOk(s: Option<string>, max: nat) {
    s.None? || |s.value| <= max
  }

  /** `@Pattern`: null, or a whole-string match. */
  predicate PatternOk(s: Option<string>, p: Pattern) {
    s.None? || FullMatch(p, s.value)
  }

  /** `@Email`: null and the empty string pass; anything else is judged by the
      library's e-mail check, which this model takes as the parameter
      `isEmail`. */
  predicate EmailOk(s: Option<string>, isEmail: string -> bool) {
    s.None? || |s.value| == 0 || isEmail(s.value)
  }

  /** Binding succeeds: every annotation holds. */
  predicate BindingValid(r: CustomerRequest, isEmail: string -> bool) {
    forall a :: Holds(a, r, isEmail)
  }

  /** A phone number in the shape the phone pattern describes: an optional
      `+`, then 2 to 15 ASCII digits of which the first is not `0`. */
  predicate PhoneShape(s: string) {
    var digits := if |s| > 0 && s[0] == '+' then s[1..] else s;
    2 <= |digits| <= 15 && '1' <= digits[0] <= '9' && AllDigits(digits)
  }

  /** The RUC pattern accepts the empty string and the eleven-digit strings,
      and nothing else. */
  lemma RucConstraintMeans(s: string)
    ensures FullMatch(RucConstraint, s) <==> |s| == 0 || IsRucNumber(s)
  {
    SingleRep(Rep(Digit, 11, 11), s);
    assert RucConstraint[0] == [Rep(Digit, 11, 11)];
    assert RucConstraint[1] == [];
    assert AllInClass(s, Digit) <==> AllDigits(s);
    if |s| == 0 {
      assert MatchesAll(RucConstraint[1], s);
    }
  }

  /** After the optional sign: a non-zero digit, then 1 to 14 digits. */
  lemma PhoneDigitsMeans(x: string)
    ensures MatchesAll([Rep(NonZeroDigit, 1, 1), Rep(Digit, 1, 14)], x)
        <==> 2 <= |x| <= 15 && '1' <= x[0] <= '9' && AllDigits(x)
  {
    FixedHead(1, NonZeroDigit, [Rep(Digit, 1, 14)], x);
    assert [Rep(NonZeroDigit, 1, 1), Rep(Digit, 1, 14)] == [Rep(NonZeroDigit, 1, 1)] + [Rep(Digit, 1, 14)];
    if |x| >= 1 {
      SingleRep(Rep(Digit, 1, 14), x[1..]);
      assert AllInClass(x[1..], Digit) <==> AllDigits(x[1..]);
      assert AllInClass(x[..1], NonZeroDigit) <==> '1' <= x[0] <= '9';
      assert AllDigits(x) <==> IsAsciiDigit(x[0]) && AllDigits(x[1..]) by {
        if IsAsciiDigit(x[0]) && AllDigits(x[1..]) {
          forall i | 0 <= i < |x| ensures IsAsciiDigit(x[i]) {
            if i > 0 { assert x[i] == x[1..][i - 1]; }
          }
        }
      }
    }
  }

  /** The phone pattern accepts exactly the strings of `PhoneShape`. */
  lemma PhoneConstraintMeans(s: string)
    ensures FullMatch(PhoneConstraint, s) <==> PhoneShape(s)
  {
    var rest := [Rep(NonZeroDigit, 1, 1), Rep(Digit, 1, 14)];
    assert PhoneConstraint[0] == [Rep(Exactly('+'), 0, 1)] + rest;
    OptionalHead('+', rest, s);
    PhoneDigitsMeans(s);
    if |s| > 0 {
      PhoneDigitsMeans(s[1..]);
    }
  }

  /** `@NotBlank`: present, and not made of trimmed characters only. */
  lemma NotBlankMeans(s: Option<string>)
    ensures !IsBlank(s) <==> s.Some? && !AllTrimmed(s.value)
  {
  }

  /** The RUC constraint: null, empty or eleven digits. */
  lemma RucFieldMeans(ruc: Option<string>)
    ensures PatternOk(ruc, RucConstraint) <==> ruc.None? || |ruc.value| == 0 || IsRucNumber(ruc.value)
  {
    if ruc.Some? { RucConstraintMeans(ruc.value); }
  }

  /** The two phone constraints together: present and phone-shaped. */
  lemma PhoneFieldMeans(phone: Option<string>)
    ensures !IsBlank(phone) && PatternOk(phone, PhoneConstraint) <==> phone.Some? && PhoneShape(phone.value)
  {
    if phone.Some? {
      var p := phone.value;
      PhoneConstraintMeans(p);
      if PhoneShape(p) {
        var k := if p[0] == '+' then 1 else 0;
        assert !IsTrimmed(p[k]);
      }
    }
  }

  /** The three e-mail constraints together. */
  lemma EmailFieldMeans(email: Option<string>, isEmail: string -> bool)
    ensures !IsBlank(email) && EmailOk(email, isEmail) && SizeOk(email, 150)
        <==> email.Some? && !AllTrimmed(email.value) && isEmail(email.value) && |email.value| <= 150
  {
    if email.Some? && !AllTrimmed(email.value) {
      assert |email.value| != 0;
    }
  }

  /** Binding's demands, field by field, in plain terms. */
  predicate PlainlyValid(r: CustomerRequest, isEmail: string -> bool) {
    && r.customerType.Some? && r.customerType.value != {}
    && r.documentType.Some?
    && r.documentNumber.Some? && !AllTrimmed(r.documentNumber.value) && |r.documentNumber.value| <= 12
    && (r.ruc.None? || |r.ruc.value| == 0 || IsRucNumber(r.ruc.value))
    && r.phoneNumber.Some? && PhoneShape(r.phoneNumber.value)
    && SizeOk(r.firstName, 100) && SizeOk(r.lastName, 100) && SizeOk(r.companyName, 200)
    && r.email.Some? && !AllTrimmed(r.email.value) && isEmail(r.email.value) && |r.email.value| <= 150
    && r.address.Some? && !AllTrimmed(r.address.value) && |r.address.value| <= 300
  }

  lemma ValidIsPlain(r: CustomerRequest, isEmail: string -> bool)
    requires BindingValid(r, isEmail)
    ensures PlainlyValid(r, isEmail)
  {
    assert Holds(CustomerTypeNotEmpty, r, isEmail) && Holds(FirstNameSize, r, isEmail)
      && Holds(LastNameSize, r, isEmail) && Holds(DocumentTypeNotNull, r, isEmail)
      && Holds(DocumentNumberNotBlank, r, isEmail) && Holds(DocumentNumberSize, r, isEmail)
      && Holds(CompanyNameSize, r, isEmail) && Holds(RucPattern, r, isEmail)
      && Holds(PhoneNotBlank, r, isEmail) && Holds(PhonePattern, r, isEmail)
      && Holds(EmailNotBlank, r, isEmail) && Holds(EmailFormat, r, isEmail)
      && Holds(EmailSize, r, isEmail) && Holds(AddressNotBlank, r, isEmail) && Holds(AddressSize, r, isEmail);
    PlainFields(r, isEmail);
  }

  /** The annotations on the fields with a pattern or a blank check, in plain
      terms. */
  lemma PlainFields(r: CustomerRequest, isEmail: string -> bool)
    requires Holds(DocumentNumberNotBlank, r, isEmail) && Holds(AddressNotBlank, r, isEmail)
    requires Holds(RucPattern, r, isEmail)
    requires Holds(PhoneNotBlank, r, isEmail) && Holds(PhonePattern, r, isEmail)
    requires Holds(EmailNotBlank, r, isEmail) && Holds(EmailFormat, r, isEmail) && Holds(EmailSize, r, isEmail)
    ensures r.documentNumber.Some? && !AllTrimmed(r.documentNumber.value)
    ensures r.address.Some? && !AllTrimmed(r.address.value)
    ensures r.ruc.None? || |r.ruc.value| == 0 || IsRucNumber(r.ruc.value)
    ensures r.phoneNumber.Some? && PhoneShape(r.phoneNumber.value)
    ensures r.email.Some? && !AllTrimmed(r.email.value) && isEmail(r.email.value)
  {
    NotBlankMeans(r.documentNumber);
    NotBlankMeans(r.address);
    RucFieldMeans(r.ruc);
    PhoneFieldMeans(r.phoneNumber);
    EmailFieldMeans(r.email, isEmail);
  }

  lemma PlainIsValid(r: CustomerRequest, isEmail: string -> bool)
    requires PlainlyValid(r, isEmail)
    ensures BindingValid(r, isEmail)
  {
    forall a ensures Holds(a, r, isEmail) {
      match a
      case CustomerTypeNotEmpty =>
      case FirstNameSize =>
      case LastNameSize =>
      case DocumentTypeNotNull =>
      case DocumentNumberNotBlank => NotBlankMeans(r.documentNumber);
      case DocumentNumberSize =>
      case CompanyNameSize =>
      case RucPattern => RucFieldMeans(r.ruc);
      case PhoneNotBlank => PhoneFieldMeans(r.phoneNumber);
      case PhonePattern => PhoneFieldMeans(r.phoneNumber);
      case EmailNotBlank => EmailFieldMeans(r.email, isEmail);
      case EmailFormat => EmailFieldMeans(r.email, isEmail);
      case EmailSize =>
      case AddressNotBlank => NotBlankMeans(r.address);
      case AddressSize =>
    }
  }

  /** What binding demands, field by field, in plain terms. */
  lemma BindingValidMeans(r: CustomerRequest, isEmail: string -> bool)
    ensures BindingValid(r, isEmail) <==> PlainlyValid(r, isEmail)
  {
    if BindingValid(r, isEmail) {
      ValidIsPlain(r, isEmail);
    } else if PlainlyValid(r, isEmail) {
      PlainIsValid(r, isEmail);
    }
  }

  /** The bean-validation annotations of the request, one per field and
      constraint. */
  datatype Annotation =
    | CustomerTypeNotEmpty
    | FirstNameSize | LastNameSize
    | DocumentTypeNotNull | DocumentNumberNotBlank | DocumentNumberSize
    | CompanyNameSize
    | RucPattern
    | PhoneNotBlank | PhonePattern
    | EmailNotBlank | EmailFormat | EmailSize
    | AddressNotBlank | AddressSize

  /** The annotations in the order they are declared. */
  const Declared: seq<Annotation> := [
    CustomerTypeNotEmpty, FirstNameSize, LastNameSize, DocumentTypeNotNull,
    DocumentNumberNotBlank, DocumentNumberSize, CompanyNameSize, RucPattern,
    PhoneNotBlank, PhonePattern, EmailNotBlank, EmailFormat, EmailSize,
    AddressNotBlank, AddressSize]

  function FieldOf(a: Annotation): string {
    match a
    case CustomerTypeNotEmpty => "customerType"
    case FirstNameSize => "firstName"
    case LastNameSize => "lastName"
    case DocumentTypeNotNull => "documentType"
    case DocumentNumberNotBlank | DocumentNumberSize => "documentNumber"
    case CompanyNameSize => "companyName"
    case RucPattern => "ruc"
    case PhoneNotBlank | PhonePattern => "phoneNumber"
    case EmailNotBlank | EmailFormat | EmailSize => "email"
    case AddressNotBlank | AddressSize => "address"
  }

  /** The annotation's `message`. */
  function MessageOf(a: Annotation): string {
    match a
    case CustomerTypeNotEmpty => "Customer type cannot be empty"
    case FirstNameSize => "First name cannot exceed 100 characters"
    case LastNameSize => "Last name cannot exceed 100 characters"
    case DocumentTypeNotNull => "Document type is required"
    case DocumentNumberNotBlank => "Document number is required"
    case DocumentNumberSize => "Document number cannot exceed 12 characters"
    case CompanyNameSize => "Company name cannot exceed 200 characters"
    case RucPattern => "RUC must be exactly 11 digits"
    case PhoneNotBlank => "Phone number is required"
    case PhonePattern => "Phone number format is invalid"
    case EmailNotBlank => "Email is required"
    case EmailFormat => "Email format is invalid"
    case EmailSize => "Email cannot exceed 150 characters"
    case AddressNotBlank => "Address is required"
    case AddressSize => "Address cannot exceed 300 characters"
  }

  /** Whether the request meets the annotation. */
  predicate Holds(a: Annotation, r: CustomerRequest, isEmail: string -> bool) {
    match a
    case CustomerTypeNotEmpty => r.customerType.Some? && |r.customerType.value| > 0
    case FirstNameSize => SizeOk(r.firstName, 100)
    case LastNameSize => SizeOk(r.lastName, 100)
    case DocumentTypeNotNull => r.documentType.Some?
    case DocumentNumberNotBlank => !IsBlank(r.documentNumber)
    case DocumentNumberSize => SizeOk(r.documentNumber, 12)
    case CompanyNameSize => SizeOk(r.companyName, 200)
    case RucPattern => PatternOk(r.ruc, RucConstraint)
    case PhoneNotBlank => !IsBlank(r.phoneNumber)
    case PhonePattern => PatternOk(r.phoneNumber, PhoneConstraint)
    case EmailNotBlank => !IsBlank(r.email)
    case EmailFormat => EmailOk(r.email, isEmail)
    case EmailSize => SizeOk(r.email, 150)
    case AddressNotBlank => !IsBlank(r.address)
    case AddressSize => SizeOk(r.address, 300)
  }

  /** The error an annotation reports. */
  function Report(a: Annotation): FieldError {
    FieldError(FieldOf(a), MessageOf(a))
  }

  /** Every annotation is declared. */
  lemma AllDeclared(a: Annotation)
    ensures a in Declared
  {
  }

  /** The reports of the annotations in `anns` that the request violates, in
      order: a violated annotation is reported, and nothing else is. */
  function Violations(anns: seq<Annotation>, r: CustomerRequest, isEmail: string -> bool): (errs: seq<FieldError>)
    ensures forall a :: a in anns && !Holds(a, r, isEmail) ==> Report(a) in errs
    ensures forall e :: e in errs ==> exists a :: a in anns && !Holds(a, r, isEmail) && e == Report(a)
    ensures |errs| == 0 <==> forall a :: a in anns ==> Holds(a, r, isEmail)
  {
    if |anns| == 0 then []
    else
      var rest := Violations(anns[1..], r, isEmail);
      assert forall a :: a in anns <==> a == anns[0] || a in anns[1..];
      (if Holds(anns[0], r, isEmail) then [] else [Report(anns[0])]) + rest
  }

  /** The field errors the framework reports for a request: one per violated
      annotation, with that annotation's message, in declaration order, and
      none for an annotation that holds. */
  function BindingViolations(r: CustomerRequest, isEmail: string -> bool): (errs: seq<FieldError>)
    ensures |errs| == 0 <==> BindingValid(r, isEmail)
    ensures forall a :: !Holds(a, r, isEmail) ==> Report(a) in errs
    ensures forall e :: e in errs ==> exists a :: !Holds(a, r, isEmail) && e == Report(a)
  {
    forall a ensures a in Declared { AllDeclared(a); }
    Violations(Declared, r, isEmail)
  }
}

=== FILE: responses.dfy ===
/** `CustomerResponseDTO`: the customer as returned to API callers. */
module Responses {
  import opened Results
  import opened CustomerTypes
  import opened DocumentTypes
  import opened Entity

  datatype CustomerResponse = CustomerResponse(
    id: Option<Id>,
    customerType: set<CustomerType>,
    firstName: Option<string>,
    lastName: Option<string>,
    documentType: Option<DocumentType>,
    documentNumber: Option<string>,
    companyName: Option<string>,
    ruc: Option<string>,
    phoneNumber: Option<string>,
    email: Option<string>,
    address: Option<string>,
    createdAt: Timestamp,
    updatedAt: Option<Timestamp>,
    active: bool)
}

=== FILE: results.dfy ===
/** Failure-carrying datatypes shared by the whole model: Java's nullable
    references become `Option`, thrown exceptions become the failure side of
    `Outcome` (for `void` checks) or `Result` (for value-returning calls). */
module Results {

  /** A nullable reference: `None` stands for Java's `null`. */
  datatype Option<+T> = None | Some(value: T)

  /** The outcome of a `void` check that either returns normally or throws. */
  datatype Outcome<+E> = Pass | Fail(error: E)

  /** The outcome of a call that either yields a value or throws. */
  datatype Result<+T, +E> = Success(value: T) | Failure(error: E)
}

=== FILE: service.dfy ===
/** `CustomerServiceImpl`: create, read, update, delete and list over the
    customer store. Each operation is one atomic step from a store to a new
    store and a result; the clock and the store-generated identifier of a new
    record are parameters. */
module CustomerService {
  import opened Results
  import opened Errors
  import opened Requests
  import opened CustomerValidator
  import opened Entity
  import opened Responses
  import opened Mapper

  /** The store after an operation, and what the operation returned. */
  datatype Reply<T> = Reply(store: Store, result: Result<T, Error>)

  /** Java string concatenation renders null as "null". */
  function Show(s: Option<string>): string {
    if s.None? then "null" else s.value
  }

  // The repository's derived queries, by their names. A null argument
  // matches records whose field is null, as a query on null does.

  predicate ExistsByEmail(store: Store, email: Option<string>) {
    exists k :: k in store && store[k].email == email
  }

  predicate ExistsByDocumentNumber(store: Store, documentNumber: Option<string>) {
    exists k :: k in store && store[k].documentNumber == documentNumber
  }

  predicate ExistsByRuc(store: Store, ruc: string) {
    exists k :: k in store && store[k].ruc == Some(ruc)
  }

  predicate ExistsByEmailAndIdNot(store: Store, email: Option<string>, id: Id) {
    exists k :: k in store && k != id && store[k].email == email
  }

  predicate ExistsByDocumentNumberAndIdNot(store: Store, documentNumber: Option<string>, id: Id) {
    exists k :: k in store && k != id && store[k].documentNumber == documentNumber
  }

  predicate ExistsByRucAndIdNot(store: Store, ruc: string, id: Id) {
    exists k :: k in store && k != id && store[k].ruc == Some(ruc)
  }

  /** The three query results, joined: the first hit in the order email,
      document number, RUC decides the reported conflict. */
  function FirstConflict(emailExists: bool, documentExists: bool, rucExists: bool,
                         req: CustomerRequest, prefix: string): Outcome<Error>
  {
    var field :=
      if emailExists then EmailField
      else if documentExists then DocumentNumberField
      else RucField;
    if emailExists || documentExists || rucExists then
      Fail(DuplicateCustomer(field, prefix + ConflictDetail(field, req)))
    else
      Pass
  }

  /** The offending field and the value the request gave it, as the
      duplicate message names them. */
  function ConflictDetail(field: UniqueField, req: CustomerRequest): string {
    match field
    case EmailField => "email: " + Show(req.email)
    case DocumentNumberField => "document number: " + Show(req.documentNumber)
    case RucField => "RUC: " + Show(req.ruc)
  }

  const CreatePrefix := "Customer already exists with "
  const UpdatePrefix := "Another customer already exists with "

  /** `validateUniqueFields`. The RUC query is skipped only for a null RUC;
      an empty RUC is still looked up. */
  function ValidateUniqueFields(store: Store, req: CustomerRequest): (res: Outcome<Error>)
    ensures res.Pass? <==>
      && !ExistsByEmail(store, req.email)
      && !ExistsByDocumentNumber(store, req.documentNumber)
      && (req.ruc.Some? ==> !ExistsByRuc(store, req.ruc.value))
    ensures res.Fail? ==> res.error.DuplicateCustomer?
    ensures ExistsByEmail(store, req.email) ==> res.error.field == EmailField
    ensures !ExistsByEmail(store, req.email) && ExistsByDocumentNumber(store, req.documentNumber) ==>
      res.error.field == DocumentNumberField
    ensures res.Fail? && res.error.field == DocumentNumberField ==> ExistsByDocumentNumber(store, req.documentNumber)
    ensures res.Fail? && res.error.field == RucField ==> req.ruc.Some? && ExistsByRuc(store, req.ruc.value)
    ensures res.Fail? && !ExistsByEmail(store, req.email) && !ExistsByDocumentNumber(store, req.documentNumber) ==>
      res.error.field == RucField
    ensures res.Fail? ==> res.error.message == CreatePrefix + ConflictDetail(res.error.field, req)
  {
    FirstConflict(
      ExistsByEmail(store, req.email),
      ExistsByDocumentNumber(store, req.documentNumber),
      if req.ruc.Some? then ExistsByRuc(store, req.ruc.value) else false,
      req, CreatePrefix)
  }

  /** `validateUniqueFieldsForUpdate`: the same checks, ignoring the record
      being updated. */
  function ValidateUniqueFieldsForUpdate(store: Store, id: Id, req: CustomerRequest): (res: Outcome<Error>)
    ensures res.Pass? <==>
      && !ExistsByEmailAndIdNot(store, req.email, id)
      && !ExistsByDocumentNumberAndIdNot(store, req.documentNumber, id)
      && (req.ruc.Some? ==> !ExistsByRucAndIdNot(store, req.ruc.value, id))
    ensures res.Fail? ==> res.error.DuplicateCustomer?
    ensures ExistsByEmailAndIdNot(store, req.email, id) ==> res.error.field == EmailField
    ensures !ExistsByEmailAndIdNot(store, req.email, id) && ExistsByDocumentNumberAndIdNot(store, req.documentNumber, id) ==>
      res.error.field == DocumentNumberField
    ensures res.Fail? && res.error.field == DocumentNumberField ==>
      ExistsByDocumentNumberAndIdNot(store, req.documentNumber, id)
    ensures res.Fail? && res.error.field == RucField ==> req.ruc.Some? && ExistsByRucAndIdNot(store, req.ruc.value, id)
    ensures (&& res.Fail?
             && !ExistsByEmailAndIdNot(store, req.email, id)
             && !ExistsByDocumentNumberAndIdNot(store, req.documentNumber, id)) ==>
      res.error.field == RucField
    ensures res.Fail? ==> res.error.message == UpdatePrefix + ConflictDetail(res.error.field, req)
  {
    FirstConflict(
      ExistsByEmailAndIdNot(store, req.email, id),
      ExistsByDocumentNumberAndIdNot(store, req.documentNumber, id),
      if req.ruc.Some? then ExistsByRucAndIdNot(store, req.ruc.value, id) else false,
      req, UpdatePrefix)
  }

  function NotFoundWithId(id: Id): Error {
    CustomerNotFound("Customer not found with ID: " + id)
  }

  /** `create`: validate, check uniqueness, map, save under the
      store-generated identifier `freshId`, map to a response. */
  function Create(store: Store, req: CustomerRequest, now: Timestamp, freshId: Id): (r: Reply<CustomerResponse>)
    requires freshId !in store
    ensures r.result.Failure? ==> r.store == store
    ensures r.result.Success? <==> RulesHold(req) && ValidateUniqueFields(store, req).Pass?
    ensures !RulesHold(req) ==> r.result == Failure(ValidateCustomerRequest(req).error)
    ensures RulesHold(req) && ValidateUniqueFields(store, req).Fail? ==>
      r.result == Failure(ValidateUniqueFields(store, req).error)
    ensures r.result.Success? ==>
      && r.store.Keys == store.Keys + {freshId}
      && (forall k :: k in store ==> r.store[k] == store[k])
      && r.store[freshId].id == Some(freshId)
      && r.store[freshId].active && r.store[freshId].createdAt == now && r.store[freshId].updatedAt.None?
      && CarriesRequest(req, r.store[freshId])
      && r.result.value == ToResponseDto(r.store[freshId])
  {
    var valid := ValidateCustomerRequest(req);
    if valid.Fail? then Reply(store, Failure(valid.error))
    else
      var unique := ValidateUniqueFields(store, req);
      if unique.Fail? then Reply(store, Failure(unique.error))
      else
        var saved := ToEntity(req, now).(id := Some(freshId));
        Reply(store[freshId := saved], Success(ToResponseDto(saved)))
  }

  /** `update`: validate, check uniqueness against the other records, then
      look the record up, apply the request, save, map to a response.
      Uniqueness is checked before existence. */
  function Update(store: Store, id: Id, req: CustomerRequest, now: Timestamp): (r: Reply<CustomerResponse>)
    ensures r.result.Failure? ==> r.store == store
    ensures r.result.Success? <==>
      RulesHold(req) && ValidateUniqueFieldsForUpdate(store, id, req).Pass? && id in store
    ensures !RulesHold(req) ==> r.result == Failure(ValidateCustomerRequest(req).error)
    ensures RulesHold(req) && ValidateUniqueFieldsForUpdate(store, id, req).Fail? ==>
      r.result == Failure(ValidateUniqueFieldsForUpdate(store, id, req).error)
    ensures RulesHold(req) && ValidateUniqueFieldsForUpdate(store, id, req).Pass? && id !in store ==>
      r.result == Failure(NotFoundWithId(id))
    ensures r.result.Success? ==>
      && r.store.Keys == store.Keys
      && (forall k :: k in store && k != id ==> r.store[k] == store[k])
      && r.store[id] == UpdateEntityFromDto(req, store[id], now)
      && r.result.value == ToResponseDto(r.store[id])
  {
    var valid := ValidateCustomerRequest(req);
    if valid.Fail? then Reply(store, Failure(valid.error))
    else
      var unique := ValidateUniqueFieldsForUpdate(store, id, req);
      if unique.Fail? then Reply(store, Failure(unique.error))
      else if id !in store then Reply(store, Failure(NotFoundWithId(id)))
      else
        var updated := UpdateEntityFromDto(req, store[id], now);
        Reply(store[id := updated], Success(ToResponseDto(updated)))
  }

  /** `deleteById`: an absent id is reported and nothing changes; otherwise
      exactly that record is removed. */
  function DeleteById(store: Store, id: Id): (r: Reply<()>)
    ensures id !in store ==> r == Reply(store, Failure(NotFoundWithId(id)))
    ensures id in store ==>
      && r.result.Success?
      && r.store.Keys == store.Keys - {id}
      && (forall k :: k in r.store ==> r.store[k] == store[k])
  {
    if id !in store then Reply(store, Failure(NotFoundWithId(id)))
    else Reply(store - {id}, Success(()))
  }

  /** `findById`. */
  function FindById(store: Store, id: Id): (r: Result<CustomerResponse, Error>)
    ensures r.Failure? <==> id !in store
    ensures r.Failure? ==> r.error == NotFoundWithId(id)
    ensures r.Success? ==> r.value == ToResponseDto(store[id])
  {
    if id in store then Success(ToResponseDto(store[id])) else Failure(NotFoundWithId(id))
  }

  /** The error a single-result finder raises when more than one record
      matches; the handler answers it as an unexpected error. */
  const NonUniqueResult := Unexpected("query did not return a unique result")

  /** `findByEmail`: not found when no record has the e-mail, the finder's
      non-unique-result error when several do, and otherwise the response of
      the one record that has it. */
  method FindByEmail(store: Store, email: string) returns (r: Result<CustomerResponse, Error>)
    ensures r == Failure(CustomerNotFound("Customer not found with email: " + email))
        <==> !ExistsByEmail(store, Some(email))
    ensures r == Failure(NonUniqueResult) <==>
      exists k1, k2 :: k1 in store && k2 in store && k1 != k2
        && store[k1].email == Some(email) && store[k2].email == Some(email)
    ensures r.Success? ==> exists k :: k in store && store[k].email == Some(email)
    ensures r.Success? ==>
      forall k :: k in store && store[k].email == Some(email) ==> r.value == ToResponseDto(store[k])
    ensures r.Failure? ==>
      r == Failure(CustomerNotFound("Customer not found with email: " + email)) || r == Failure(NonUniqueResult)
    ensures forall k ::
      (&& k in store && store[k].email == Some(email)
       && forall k2 :: k2 in store && store[k2].email == Some(email) ==> k2 == k) ==>
      r == Success(ToResponseDto(store[k]))
    ensures UniqueIndexes(store) && r.Failure? ==> r.error.CustomerNotFound?
  {
    if k :| k in store && store[k].email == Some(email) {
      if k2 :| k2 in store && k2 != k && store[k2].email == Some(email) {
        r := Failure(NonUniqueResult);
      } else {
        r := Success(ToResponseDto(store[k]));
      }
    } else {
      r := Failure(CustomerNotFound("Customer not found with email: " + email));
    }
  }

  /** `findByDocumentNumber`: not found when no record has the number, the
      finder's non-unique-result error when several do, and otherwise the
      response of the one record that has it. */
  method FindByDocumentNumber(store: Store, documentNumber: string) returns (r: Result<CustomerResponse, Error>)
    ensures r == Failure(CustomerNotFound("Customer not found with document number: " + documentNumber))
        <==> !ExistsByDocumentNumber(store, Some(documentNumber))
    ensures r == Failure(NonUniqueResult) <==>
      exists k1, k2 :: k1 in store && k2 in store && k1 != k2
        && store[k1].documentNumber == Some(documentNumber) && store[k2].documentNumber == Some(documentNumber)
    ensures r.Success? ==> exists k :: k in store && store[k].documentNumber == Some(documentNumber)
    ensures r.Success? ==>
      forall k :: k in store && store[k].documentNumber == Some(documentNumber) ==> r.value == ToResponseDto(store[k])
    ensures r.Failure? ==>
      || r == Failure(CustomerNotFound("Customer not found with document number: " + documentNumber))
      || r == Failure(NonUniqueResult)
    ensures forall k ::
      (&& k in store && store[k].documentNumber == Some(documentNumber)
       && forall k2 :: k2 in store && store[k2].documentNumber == Some(documentNumber) ==> k2 == k) ==>
      r == Success(ToResponseDto(store[k]))
    ensures UniqueIndexes(store) && r.Failure? ==> r.error.CustomerNotFound?
  {
    if k :| k in store && store[k].documentNumber == Some(documentNumber) {
      if k2 :| k2 in store && k2 != k && store[k2].documentNumber == Some(documentNumber) {
        r := Failure(NonUniqueResult);
      } else {
        r := Success(ToResponseDto(store[k]));
      }
    } else {
      r := Failure(CustomerNotFound("Customer not found with document number: " + documentNumber));
    }
  }

  /** The records a listing returns: all of them, or only the active ones. */
  function Selected(store: Store, activeOnly: bool): set<Id> {
    set k | k in store && (!activeOnly || store[k].active)
  }

  /** The listing shared by `findAll` and `findByActive`: one response per
      selected record, each the response of a selected record, in whatever
      order the store yields them. */
  method List(store: Store, activeOnly: bool) returns (rs: seq<CustomerResponse>)
    ensures |rs| == |Selected(store, activeOnly)|
    ensures forall i :: 0 <= i < |rs| ==>
      exists k :: k in Selected(store, activeOnly) && rs[i] == ToResponseDto(store[k])
    ensures forall k :: k in Selected(store, activeOnly) ==> ToResponseDto(store[k]) in rs
  {
    var todo := Selected(store, activeOnly);
    rs := [];
    while todo != {}
      invariant todo <= Selected(store, activeOnly)
      invariant |rs| + |todo| == |Selected(store, activeOnly)|
      invariant forall i :: 0 <= i < |rs| ==>
        exists k :: k in Selected(store, activeOnly) && rs[i] == ToResponseDto(store[k])
      invariant forall k :: k in Selected(store, activeOnly) - todo ==> ToResponseDto(store[k]) in rs
      decreases |todo|
    {
      var k :| k in todo;
      rs := rs + [ToResponseDto(store[k])];
      todo := todo - {k};
    }
  }

  /** `findAll`. */
  method FindAll(store: Store) returns (rs: seq<CustomerResponse>)
    ensures |rs| == |store|
    ensures forall k :: k in store ==> ToResponseDto(store[k]) in rs
    ensures forall i :: 0 <= i < |rs| ==> exists k :: k in store && rs[i] == ToResponseDto(store[k])
  {
    rs := List(store, false);
    assert Selected(store, false) == store.Keys;
  }

  /** `findByActive`: only active records, and all of them. */
  method FindByActive(store: Store) returns (rs: seq<CustomerResponse>)
    ensures |rs| == |Selected(store, true)|
    ensures forall i :: 0 <= i < |rs| ==> rs[i].active
    ensures forall k :: k in store && store[k].active ==> ToResponseDto(store[k]) in rs
    ensures forall i :: 0 <= i < |rs| ==> exists k :: k in store && store[k].active && rs[i] == ToResponseDto(store[k])
  {
    rs := List(store, true);
  }
}

=== FILE: service_properties.dfy ===
/** Properties of the customer service that relate several operations or
    hold across every reachable store. */
module ServiceProperties {
  import opened Results
  import opened Text
  import opened DocumentTypes
  import opened Errors
  import opened Requests
  import opened DocumentValidator
  import opened CustomerValidator
  import opened Entity
  import opened Responses
  import opened Mapper
  import opened CustomerService

  /** Storing `c` under `key` keeps the unique indexes when `c` clashes with
      none of the other records. */
  lemma {:induction false} PutPreservesUniqueIndexes(store: Store, key: Id, c: Customer)
    requires UniqueIndexes(store)
    requires forall k :: k in store && k != key ==>
      && c.email != store[k].email
      && c.documentNumber != store[k].documentNumber
      && (c.ruc.Some? ==> c.ruc != store[k].ruc)
      && (store[k].ruc.Some? ==> store[k].ruc != c.ruc)
    ensures UniqueIndexes(store[key := c])
  {
    var s := store[key := c];
    forall k1, k2 | k1 in s && k2 in s && k1 != k2
      ensures s[k1].email != s[k2].email
      ensures s[k1].documentNumber != s[k2].documentNumber
      ensures s[k1].ruc.Some? ==> s[k1].ruc != s[k2].ruc
    {
      if k1 != key && k2 != key {
        assert s[k1] == store[k1] && s[k2] == store[k2];
      }
    }
  }

  /** A create that succeeds keeps every record's identifier equal to its key
      and keeps the unique indexes: the uniqueness checks are exactly what the
      indexes need. */
  lemma {:induction false} CreatePreservesWellFormed(store: Store, req: CustomerRequest, now: Timestamp, freshId: Id)
    requires freshId !in store && WellFormed(store)
    ensures WellFormed(Create(store, req, now, freshId).store)
  {
    var r := Create(store, req, now, freshId);
    if r.result.Success? {
      var c := r.store[freshId];
      assert r.store == store[freshId := c];
      assert ValidateUniqueFields(store, req).Pass?;
      assert CarriesRequest(req, c);
      forall k | k in store && k != freshId
        ensures c.email != store[k].email && c.documentNumber != store[k].documentNumber
        ensures c.ruc.Some? ==> c.ruc != store[k].ruc
        ensures store[k].ruc.Some? ==> store[k].ruc != c.ruc
      {
        assert !(store[k].email == req.email);
        assert !(store[k].documentNumber == req.documentNumber);
        assert req.ruc.Some? ==> store[k].ruc != Some(req.ruc.value);
      }
      PutPreservesUniqueIndexes(store, freshId, c);
    }
  }

  /** An update that succeeds keeps the store well formed. A null e-mail,
      document number or RUC in the request is not checked, but then the
      record keeps its old value, which the indexes already admitted. */
  lemma {:induction false} UpdatePreservesWellFormed(store: Store, id: Id, req: CustomerRequest, now: Timestamp)
    requires WellFormed(store)
    ensures WellFormed(Update(store, id, req, now).store)
  {
    var r := Update(store, id, req, now);
    if r.result.Success? {
      var prev := store[id];
      var c := r.store[id];
      assert r.store == store[id := c];
      assert ValidateUniqueFieldsForUpdate(store, id, req).Pass?;
      forall k | k in store && k != id
        ensures c.email != store[k].email && c.documentNumber != store[k].documentNumber
        ensures c.ruc.Some? ==> c.ruc != store[k].ruc
        ensures store[k].ruc.Some? ==> store[k].ruc != c.ruc
      {
        assert prev.email != store[k].email && prev.documentNumber != store[k].documentNumber;
        assert prev.ruc.Some? ==> prev.ruc != store[k].ruc;
        assert store[k].ruc.Some? ==> store[k].ruc != prev.ruc;
        assert req.email.Some? ==> store[k].email != req.email;
        assert req.documentNumber.Some? ==> store[k].documentNumber != req.documentNumber;
        assert req.ruc.Some? ==> store[k].ruc != Some(req.ruc.value);
      }
      PutPreservesUniqueIndexes(store, id, c);
    }
  }

  /** Deleting keeps the store well formed. */
  lemma DeletePreservesWellFormed(store: Store, id: Id)
    requires WellFormed(store)
    ensures WellFormed(DeleteById(store, id).store)
  {
  }

  /** Create, then read by the new identifier: the record comes back with the
      request's fields, the new identifier, `active` set and the creation
      time. */
  lemma CreateThenFindById(store: Store, req: CustomerRequest, now: Timestamp, freshId: Id)
    requires freshId !in store
    requires Create(store, req, now, freshId).result.Success?
    ensures var r := Create(store, req, now, freshId);
      FindById(r.store, freshId) == Success(r.result.value)
    ensures var c := FindById(Create(store, req, now, freshId).store, freshId).value;
      && c.id == Some(freshId) && c.active && c.createdAt == now && c.updatedAt.None?
      && c.email == req.email && c.documentNumber == req.documentNumber && c.ruc == req.ruc
      && c.firstName == req.firstName && c.lastName == req.lastName && c.companyName == req.companyName
      && c.documentType == req.documentType && c.phoneNumber == req.phoneNumber && c.address == req.address
  {
  }

  /** After a create, the new record is the only one with the request's
      e-mail. */
  lemma CreatedOnlyWithEmail(store: Store, req: CustomerRequest, now: Timestamp, freshId: Id)
    requires freshId !in store
    requires Create(store, req, now, freshId).result.Success?
    ensures var r := Create(store, req, now, freshId);
      && ExistsByEmail(r.store, req.email)
      && forall k :: k in r.store && r.store[k].email == req.email ==> k == freshId
  {
    var r := Create(store, req, now, freshId);
    assert r.store[freshId].email == req.email;
    assert !ExistsByEmail(store, req.email);
  }

  /** After a create, the new record is the only one with the request's
      document number. */
  lemma CreatedOnlyWithDocumentNumber(store: Store, req: CustomerRequest, now: Timestamp, freshId: Id)
    requires freshId !in store
    requires Create(store, req, now, freshId).result.Success?
    ensures var r := Create(store, req, now, freshId);
      && ExistsByDocumentNumber(r.store, req.documentNumber)
      && forall k :: k in r.store && r.store[k].documentNumber == req.documentNumber ==> k == freshId
  {
    var r := Create(store, req, now, freshId);
    assert r.store[freshId].documentNumber == req.documentNumber;
    assert !ExistsByDocumentNumber(store, req.documentNumber);
  }

  /** Create, then look up by the request's e-mail: the look-up returns the
      create's response. */
  method CreateThenFindByEmail(store: Store, req: CustomerRequest, now: Timestamp, freshId: Id)
    returns (created: Reply<CustomerResponse>, found: Result<CustomerResponse, Error>)
    requires freshId !in store && req.email.Some?
    requires Create(store, req, now, freshId).result.Success?
    ensures created == Create(store, req, now, freshId)
    ensures found == created.result
  {
    created := Create(store, req, now, freshId);
    CreatedOnlyWithEmail(store, req, now, freshId);
    found := FindByEmail(created.store, req.email.value);
  }

  /** Create, then look up by the request's document number: the look-up
      returns the create's response. */
  method CreateThenFindByDocumentNumber(store: Store, req: CustomerRequest, now: Timestamp, freshId: Id)
    returns (created: Reply<CustomerResponse>, found: Result<CustomerResponse, Error>)
    requires freshId !in store && req.documentNumber.Some?
    requires Create(store, req, now, freshId).result.Success?
    ensures created == Create(store, req, now, freshId)
    ensures found == created.result
  {
    created := Create(store, req, now, freshId);
    CreatedOnlyWithDocumentNumber(store, req, now, freshId);
    found := FindByDocumentNumber(created.store, req.documentNumber.value);
  }

  /** Delete, then read by the same identifier: not found. */
  lemma DeleteThenFindById(store: Store, id: Id)
    requires id in store
    ensures FindById(DeleteById(store, id).store, id) == Failure(NotFoundWithId(id))
  {
  }

  /** An update keeps the creation time, the identifier and the active flag,
      and stamps the update time. */
  lemma UpdateKeepsCreation(store: Store, id: Id, req: CustomerRequest, now: Timestamp)
    requires Update(store, id, req, now).result.Success?
    ensures var s := Update(store, id, req, now).store;
      && s[id].createdAt == store[id].createdAt && s[id].id == store[id].id
      && s[id].active == store[id].active && s[id].updatedAt == Some(now)
  {
  }

  /** Re-submitting a record's own e-mail, document number and RUC never
      collides: the update checks skip the record itself. A create with the
      same request does collide, on the e-mail. */
  lemma {:induction false} OwnValuesNeverDuplicate(store: Store, id: Id, req: CustomerRequest)
    requires WellFormed(store) && id in store
    requires req.email == store[id].email
    requires req.documentNumber == store[id].documentNumber
    requires req.ruc == store[id].ruc
    ensures ValidateUniqueFieldsForUpdate(store, id, req) == Pass
    ensures ValidateUniqueFields(store, req).Fail? && ValidateUniqueFields(store, req).error.field == EmailField
  {
    assert store[id].email == req.email;
  }

  /** Uniqueness is checked before existence: updating a missing identifier
      with an e-mail some record has reports the duplicate, not the missing
      record. */
  lemma MissingIdWithTakenEmail(store: Store, id: Id, req: CustomerRequest, now: Timestamp, other: Id)
    requires id !in store && other in store && store[other].email == req.email
    requires RulesHold(req)
    ensures Update(store, id, req, now).result.Failure?
    ensures Update(store, id, req, now).result.error.DuplicateCustomer?
    ensures Update(store, id, req, now).result.error.field == EmailField
  {
    assert ExistsByEmailAndIdNot(store, req.email, id);
  }

  /** An empty RUC is looked up like any other: two customers may not both
      carry the empty string, while any number may leave the RUC null. */
  lemma EmptyRucIsChecked(store: Store, req: CustomerRequest, other: Id)
    requires other in store && store[other].ruc == Some("")
    requires req.ruc == Some("")
    requires !ExistsByEmail(store, req.email) && !ExistsByDocumentNumber(store, req.documentNumber)
    ensures ValidateUniqueFields(store, req) == Fail(DuplicateCustomer(RucField, CreatePrefix + "RUC: "))
    ensures ValidateUniqueFields(store, req.(ruc := None)) == Pass
  {
    assert ExistsByRuc(store, "");
    assert Show(req.ruc) == "";
    assert ConflictDetail(RucField, req) == "RUC: ";
  }

  /** A valid number with one leading space trims back to itself. */
  lemma LeadingSpaceTrims(t: DocumentType, n: string)
    requires FormatOk(t, n)
    ensures Trim(" " + n) == n
    ensures ValidateDocumentFormat(Some(t), Some(" " + n)) == Pass
  {
    FormatOkNotBlank(t, n);
    assert " " + n + "" == " " + n;
    TrimPadded(" ", n, "");
    PaddedNumberAccepted(t, n, " ", "");
  }

  /** The uniqueness check compares document numbers as submitted, while the
      format check trims them: a DNI already on file, resubmitted with a
      leading space, passes both checks, so two records can hold the same
      number once trimmed. */
  lemma PaddedDocumentNumberNotDuplicate(c: Customer, key: Id, n: string, req: CustomerRequest)
    requires FormatOk(DNI, n) && c.documentNumber == Some(n) && c.ruc.None?
    requires req.documentType == Some(DNI) && req.documentNumber == Some(" " + n)
    requires req.email != c.email && req.ruc.None?
    ensures ValidateUniqueFields(map[key := c], req) == Pass
    ensures ValidateDocuments(req) == Pass
    ensures Trim(req.documentNumber.value) == c.documentNumber.value
  {
    var store := map[key := c];
    assert ValidateUniqueFields(store, req) == Pass by {
      assert |" " + n| != |n|;
      assert !ExistsByDocumentNumber(store, req.documentNumber);
      assert !ExistsByEmail(store, req.email);
    }
    LeadingSpaceTrims(DNI, n);
  }
}

=== FILE: text.dfy ===
/** Character classes and the `java.lang.String.trim` semantics that the
    validators rely on. Strings are sequences of characters; a Java `null`
    string is `None`. */
module Text {
  import opened Results

  /** `String.trim` removes every character whose code point is at most U+0020
      (space and all ASCII control characters), not only Unicode whitespace. */
  predicate IsTrimmed(c: char) {
    c <= ' '
  }

  /** Java's `\d` without UNICODE_CHARACTER_CLASS is the ASCII range `[0-9]`. */
  predicate IsAsciiDigit(c: char) {
    '0' <= c <= '9'
  }

  /** The class `[A-Z0-9]`: upper-case ASCII letters and ASCII digits. */
  predicate IsUpperAlnum(c: char) {
    'A' <= c <= 'Z' || IsAsciiDigit(c)
  }

  predicate AllDigits(s: string) {
    forall i :: 0 <= i < |s| ==> IsAsciiDigit(s[i])
  }

  predicate AllUpperAlnum(s: string) {
    forall i :: 0 <= i < |s| ==> IsUpperAlnum(s[i])
  }

  predicate AllTrimmed(s: string) {
    forall i :: 0 <= i < |s| ==> IsTrimmed(s[i])
  }

  /** The suffix of `s` left after the leading run of trimmed characters. */
  function TrimLeading(s: string): (r: string)
    ensures |r| <= |s| && r == s[|s| - |r|..]
    ensures AllTrimmed(s[..|s| - |r|])
    ensures |r| > 0 ==> !IsTrimmed(r[0])
    decreases |s|
  {
    if |s| > 0 && IsTrimmed(s[0]) then TrimLeading(s[1..]) else s
  }

  /** The prefix of `s` left after the trailing run of trimmed characters. */
  function TrimTrailing(s: string): (r: string)
    ensures |r| <= |s| && r == s[..|r|]
    ensures AllTrimmed(s[|r|..])
    ensures |r| > 0 ==> !IsTrimmed(r[|r| - 1])
    decreases |s|
  {
    if |s| > 0 && IsTrimmed(s[|s| - 1]) then TrimTrailing(s[..|s| - 1]) else s
  }

  /** `String.trim`: strip trimmed characters from both ends. The result is
      empty exactly when every character of `s` is a trimmed character, and
      otherwise starts and ends with a character that survives trimming. */
  function Trim(s: string): (r: string)
    ensures |r| <= |s|
    ensures |r| == 0 <==> AllTrimmed(s)
    ensures |r| > 0 ==> !IsTrimmed(r[0]) && !IsTrimmed(r[|r| - 1])
  {
    var l := TrimLeading(s);
    var r := TrimTrailing(l);
    if |r| == 0 then
      assert AllTrimmed(l) by { assert l == l[|r|..]; }
      assert s == s[..|s| - |l|] + l;
      r
    else
      assert !IsTrimmed(s[|s| - |l|]);
      r
  }

  /** A string neither starts nor ends with a character `trim` would strip. */
  predicate Untrimmable(s: string) {
    |s| == 0 || (!IsTrimmed(s[0]) && !IsTrimmed(s[|s| - 1]))
  }

  /** `CustomerValidator.isBlank` (and the `@NotBlank` constraint): null, or
      empty once trimmed. */
  predicate IsBlank(s: Option<string>) {
    s.None? || |Trim(s.value)| == 0
  }

  /** A non-null string is blank exactly when it consists of trimmed
      characters only. */
  lemma BlankIffAllTrimmed(s: string)
    ensures IsBlank(Some(s)) <==> AllTrimmed(s)
  {
  }

  /** A leading run of trimmed characters in front of a string that does not
      start with one is exactly what `TrimLeading` removes. */
  lemma {:induction false} TrimLeadingPadded(pre: string, x: string)
    requires AllTrimmed(pre)
    requires |x| == 0 || !IsTrimmed(x[0])
    ensures TrimLeading(pre + x) == x
    decreases |pre|
  {
    if |pre| == 0 {
      assert pre + x == x;
    } else {
      assert (pre + x)[0] == pre[0];
      assert (pre + x)[1..] == pre[1..] + x;
      TrimLeadingPadded(pre[1..], x);
    }
  }

  /** The mirror image for `TrimTrailing`. */
  lemma {:induction false} TrimTrailingPadded(x: string, post: string)
    requires AllTrimmed(post)
    requires |x| == 0 || !IsTrimmed(x[|x| - 1])
    ensures TrimTrailing(x + post) == x
    decreases |post|
  {
    if |post| == 0 {
      assert x + post == x;
    } else {
      var s := x + post;
      assert s[|s| - 1] == post[|post| - 1];
      assert s[..|s| - 1] == x + post[..|post| - 1];
      TrimTrailingPadded(x, post[..|post| - 1]);
    }
  }

  /** Trimming removes exactly the padding: if `s` is `core` surrounded by
      runs of trimmed characters, and `core` itself has nothing to trim at its
      ends, then `Trim(s)` is `core`. */
  lemma {:induction false} TrimPadded(pre: string, core: string, post: string)
    requires AllTrimmed(pre) && AllTrimmed(post)
    requires Untrimmable(core)
    ensures Trim(pre + core + post) == core
  {
    assert pre + core + post == pre + (core + post);
    if |core| == 0 {
      assert pre + core + post == pre + post;
      assert AllTrimmed(pre + post) by {
        forall i | 0 <= i < |pre + post| ensures IsTrimmed((pre + post)[i]) {
          if i < |pre| { assert (pre + post)[i] == pre[i]; } else { assert (pre + post)[i] == post[i - |pre|]; }
        }
      }
    } else {
      assert (core + post)[0] == core[0];
      TrimLeadingPadded(pre, core + post);
      TrimTrailingPadded(core, post);
    }
  }

  /** Trimming is idempotent. */
  lemma TrimIdempotent(s: string)
    ensures Trim(Trim(s)) == Trim(s)
  {
    TrimPadded([], Trim(s), []);
    assert [] + Trim(s) + [] == Trim(s);
  }
}
